=== FILE: README.md ===
# Content-addressed cache entry and fingerprint key, in Dafny

This project models the core of the withmock build cache:

- the fingerprint key of a cache lookup (`lib/cache_keys.go`). A key is an
  operation name plus an ordered list of per-source details: path, size,
  mode, modification time and the hex hash of the content. Its fingerprint
  is the hex hash of its JSON encoding. The fingerprint is computed once and
  memoised in an unexported field.
- the cache entry, `CacheFile` (`lib/cache_file.go`). An entry is a handle
  bound to one key. It moves through these states: fresh or loaded, then
  written, then closed (its content published under its own hash), then
  installed and saved. It holds a named-value map. The reserved name
  `_DATA_` holds the content hash.

Modules:

- `Errors` (`errors.dfy`) holds results and errors. `Cerr` is the context
  wrapper; `Panic` stands for a Go panic. `Syscall` lists the calls an
  operation can fail at.
- `Hex` (`hex.dfy`) holds bytes and digests, `hex.EncodeToString` and its
  inverse.
- `CacheKeys` (`cache_keys.dfy`) models `getDetails`, `NewCacheFileKey`,
  `Hash` and `calcHash`.
- `CacheFile` (`cache_file.dfy`) models the entry and its filesystem.
  `FS` has four maps: the blob area, the metadata area, the temp files, and
  the links installed outside the cache.
- `CacheLifecycle` (`cache_lifecycle.dfy`) holds the invariants and the
  lemmas that span several operations.

Each Go method mutates its receiver and the filesystem, and may return an
error. Each is modelled as a pure function to an `Outcome`: the entry and
filesystem afterwards, plus the result. So the state left behind by an
error is modelled too. The environment is modelled by parameters:

- the hash algorithm is the function `Cache.digest`. Its sums are assumed
  non-empty, and nothing else is assumed about it.
- the key's JSON encoder is the function `Cache.encodeKey`.
- the source files are a `World` map.
- each call gets a set `faults` of the system calls that fail during it.
- a `WriteFunc` callback is a `Producer` value: the file it leaves, if any,
  and the error it returns, if any.
- the name `ioutil.TempFile` picks is a parameter `tmp`. The model requires
  it to be unused, which is the guarantee `TempFile` gives.

Three behaviours of the code are worth knowing. The model follows the code
in each:

- Installing twice to the same path fails the second time. Both `os.Link`
  and `os.Symlink` refuse an existing path (`SecondInstallToSamePathFails`).
- Values stored with `Store` are persisted only by an entry whose
  `changed` flag is set. `Store` never sets it, so `Save` on an entry
  whose `changed` flag is unset is a no-op (`StoreAloneIsNotSaved`).
  Only `Close` sets the flag. It does so before anything can fail, so an
  entry whose `Close` failed without publishing is saved too
  (`SaveAfterFailedCloseStoresUnloadableRecord`).
- Content addressing needs the temp file to hold exactly what went into
  the hash accumulator (`CacheLifecycle.Coherent`). Mixing `Write` and
  `WriteFunc` on one entry breaks this. `WriteFunc` opens a new temp file
  but keeps the accumulator's earlier bytes. The content-addressing lemmas
  are therefore stated for coherent entries: those written by `Write`
  alone, or by one successful `WriteFunc` on an unwritten entry.
  `MixedWritersMisnameBlob` shows the mixed case: the blob is published
  under a name that is not its hash. `FailedWriteFuncMisnamesBlob` shows a
  second case. A `WriteFunc` can fail after its producer left a file: the
  producer reports an error, or the file cannot be opened. Nothing then
  reaches the accumulator, yet the entry stays written, and the `Close`
  that follows publishes the file under the hash of the empty stream.

## Model

| member | source | states |
|---|---|---|
| Hex.Encode | lib/cache_file.go:212 | the hex spelling has two lower-case hex digits per byte |
| Hex.DecodeEncode | lib/cache_file.go:212 | decoding the hex spelling of any byte string gives the bytes back, so the spelling loses nothing |
| Hex.EncodeInjective | lib/cache_file.go:212 | two byte strings have the same hex spelling exactly when they are equal |
| Hex.EncodeDigestNonEmpty | lib/cache_file.go:194-195 | the spelling of a digest is never "", so "" can mean "no hash yet" |
| CacheKeys.Sum | lib/cache_keys.go:38-44 | the hex sum of a byte stream is never "" and is twice as long as the digest |
| CacheKeys.GetDetails | lib/cache_keys.go:24-54 | a missing source fails at os.Stat, and an unopenable or unreadable one fails too; otherwise the details carry the path, the stat fields and the hex hash of the content |
| CacheKeys.CollectDetails | lib/cache_keys.go:65-73 | succeeds exactly when every source can be described; the details then follow the sources one for one, in order; on failure the error is the first failing source's error, tagged with its path |
| CacheKeys.NewCacheFileKey | lib/cache_keys.go:62-79 | a key exists exactly when every source can be described; it has the given op, one detail per source in the same order with `Src` equal to the source, and no fingerprint yet |
| CacheKeys.Fingerprint | lib/cache_keys.go:89-98 | the fingerprint of an op and its details is never "" |
| CacheKeys.CalcHash | lib/cache_keys.go:89-99 | computing the hash fills the memo and leaves Op and Files as they were |
| CacheKeys.KeyHash | lib/cache_keys.go:81-87 | Hash returns a non-empty fingerprint and leaves it in the memo; a key with a memo is returned untouched, and one without gets the hex hash of the encoding of (Op, Files) |
| CacheKeys.HashIsMemoised | lib/cache_keys.go:81-87 | a second Hash returns the first one's value and changes nothing |
| CacheKeys.FingerprintDeterministic | lib/cache_keys.go:56-60 | keys with equal Op and Files have equal fingerprints, whatever their memos hold |
| CacheKeys.FingerprintSensitive | lib/cache_keys.go:89-98 | with an injective hash and encoding, two fingerprints are equal exactly when the ops and the detail lists are equal |
| CacheKeys.TouchChangesFingerprint | lib/cache_keys.go:16-22 | changing only the modification time of a source changes the key's fingerprint |
| CacheKeys.ContentChangeChangesFingerprint | lib/cache_keys.go:38-53 | changing only the content of a source changes the key's fingerprint |
| CacheFile.LoadFile | lib/cache_file.go:39-68 | no record gives a not-exist error; a readable, decodable record whose `_DATA_` is a string gives an entry with that map, that string as its hash, nothing written and nothing changed |
| CacheFile.GetFile | lib/cache_file.go:70-89 | a miss gives a fresh entry (empty map, no hash, not written, not changed); a hit gives the stored map with hash equal to `_DATA_` and not changed; any other load failure is returned and never turned into a miss |
| CacheFile.OpenTemp | lib/cache_file.go:91-107 | on success a new empty temp file is held; on failure nothing changes |
| CacheFile.Dump | lib/cache_file.go:109-124 | with no temp file held nothing happens; with one, it succeeds exactly when the file closes, still exists and can be removed; a failed close keeps the handle, any later step has dropped it; success deletes just that temp file, and a failure changes no file |
| CacheFile.Write | lib/cache_file.go:126-135 | a temp file is opened only when none is held; on success the entry is written and both the temp file and the accumulator gain exactly the bytes; the blob and metadata areas are untouched |
| CacheFile.WriteHeld | lib/cache_file.go:133-134 | on a held file, a write reaches the file and then the accumulator; a failed file write reaches neither |
| CacheFile.WriteFunc | lib/cache_file.go:137-179 | a producer that makes no file leaves the entry unwritten and the filesystem as it was, and the call succeeds; a produced file is left in place and fed to the accumulator |
| CacheFile.ProduceInto | lib/cache_file.go:146-178 | after the temp file is released, a produced file is added to the accumulator; with no file, the entry is unwritten and the temp file is gone |
| CacheFile.RunProducer | lib/cache_file.go:152-178 | the producer's file is read into the accumulator; no file at the path clears `written` and succeeds; a producer error is returned |
| CacheFile.Close | lib/cache_file.go:185-227 | with nothing written or a hash already set, it succeeds exactly when the held temp file (if any) can be discarded, and then deletes only that file; a failure changes no file, and a failed close keeps the handle; otherwise success publishes the temp file as the blob named by the hex hash of everything written, records that hash under `_DATA_` and marks the entry changed; a failed publish leaves the entry changed with `_DATA_` unset: a failed file close keeps the handle and the empty hash and changes no file, a failed rename has set the hash and changes no file, and a failed chmod has set the hash and leaves the blob published; success always leaves the entry closed |
| CacheFile.CloseUnpublished | lib/cache_file.go:186-201 | the no-publish branches keep hash, data and flags; they succeed exactly when the dump does, with its error wrapped in "f.dump"; success deletes the held temp file and no other, and a failure changes no file |
| CacheFile.Publish | lib/cache_file.go:214-218 | the rename moves the temp file's content to the blob name and removes the temp file |
| CacheFile.CloseCorrected | lib/cache_file.go:203-226 | publishes as Close does; hash, `_DATA_` and changed are recorded exactly when the rename has published the blob (even if chmod then fails), and a failure before the rename changes neither the entry's published state nor any file; the temp file's handle is released even when closing it fails |
| CacheFile.Install | lib/cache_file.go:229-262 | succeeds exactly when Close does and the closed entry can then be linked (if it has content) and saved (if changed); a Close failure is returned wrapped in "f.Close" with nothing linked; every failure is "Failed to get hash", a panic, or wrapped in "f.Close", "os.MkdirAll", "os.Symlink" or "f.Save"; success leaves the entry closed, links an entry with content at `path`, which was free, to its `_DATA_` blob, and links nothing for one without; no other link changes; metadata changes only for a changed entry, whose map becomes the record under its key's fingerprint, and never on failure |
| CacheFile.InstallCorrected | lib/cache_file.go:229-262 | the same promises as Install, over the corrected Close |
| CacheFile.LinkAndSave | lib/cache_file.go:234-261 | succeeds exactly when an entry with content can be linked (hash under `_DATA_` as a string, directory made, `path` free, a hard or symbolic link made) and a changed entry can be saved; an entry with content but no `_DATA_` fails with "Failed to get hash", and the later steps fail with their own errors, in order: MkdirAll, the type-assertion panic, "os.Symlink", then Save's error wrapped in "f.Save"; on success the path is linked to the blob named by `_DATA_`, and Save has run |
| CacheFile.LinkBlob | lib/cache_file.go:250-254 | a link to the blob appears at a free path, by hard link or else by symbolic link; an existing path is refused |
| CacheFile.Save | lib/cache_file.go:264-295 | an unchanged entry saves nothing; a changed one replaces exactly the record under its key's fingerprint with its map, and no other record changes |
| CacheFile.Has | lib/cache_file.go:301-310 | true exactly when every given name is in the map, so true for no names |
| CacheFile.HasData | lib/cache_file.go:297-299 | true exactly when `_DATA_` is in the map |
| CacheFile.Store | lib/cache_file.go:312-318 | a name starting with '_' panics (and so does the empty name); otherwise exactly that name is set and every other name, `_DATA_` included, keeps its value |
| CacheFile.Lookup | lib/cache_file.go:324-327 | found exactly when the name is present, with its value; nil otherwise |
| CacheFile.Get | lib/cache_file.go:320-322 | the value Lookup finds, and nil for a missing name |
| CacheLifecycle.GetFileEstablishes | lib/cache_file.go:70-89 | every entry GetFile returns satisfies the entry invariant, is coherent and closed, and is unchanged |
| CacheLifecycle.GetFileNeverPanicsOnValidRecords | lib/cache_file.go:61-65 | when every record holds a string under `_DATA_`, loading never reaches the failed type assertion |
| CacheLifecycle.StoreKeepsInvariant | lib/cache_file.go:312-318 | Store keeps `hash != "" ⇒ data["_DATA_"] == hash`, and never touches `_DATA_`, the hash or the changed flag |
| CacheLifecycle.StoreThenGet | lib/cache_file.go:312-327 | after a successful Store, Get and Lookup return the stored value |
| CacheLifecycle.WritesKeepInvariant | lib/cache_file.go:126-179 | Write and WriteFunc keep the entry invariant on every outcome |
| CacheLifecycle.CloseKeepsInvariant | lib/cache_file.go:203-226 | a successful Close keeps the entry invariant |
| CacheLifecycle.CorrectedCloseKeepsInvariant | lib/cache_file.go:203-226 | the corrected Close keeps the entry invariant even when it fails |
| CacheLifecycle.SaveKeepsRecordsValid | lib/cache_file.go:264-295 | Save of an entry keeping the invariant writes only records that can be loaded |
| CacheLifecycle.CloseIsIdempotent | lib/cache_file.go:185-201 | after a successful Close, a second Close changes nothing and succeeds |
| CacheLifecycle.CloseWithoutContentPublishesNothing | lib/cache_file.go:185-201 | with nothing written or a hash already set, Close keeps the hash, data and changed flag; success deletes only the held temp file, and a failure changes no file |
| CacheLifecycle.WriteKeepsCoherent | lib/cache_file.go:126-135 | a successful Write keeps the temp file equal to the accumulated bytes, from a held file, a fresh entry or a published one |
| CacheLifecycle.WriteFuncKeepsCoherent | lib/cache_file.go:137-179 | a successful WriteFunc on an unwritten entry leaves the produced file equal to the accumulated bytes |
| CacheLifecycle.MixedWritersMisnameBlob | lib/cache_file.go:126-179 | a Write of non-empty `p` followed by a WriteFunc producing `q` and a Close succeeds, but publishes `q` under the hash of `p + q`, so the blob area is no longer content-addressed |
| CacheLifecycle.FailedWriteFuncMisnamesBlob | lib/cache_file.go:137-227 | a WriteFunc on a fresh entry whose producer leaves a non-empty file but reports an error, or whose file cannot be opened, fails with the entry still written; the following Close succeeds and publishes that file under the hash of the empty stream, so the blob area is no longer content-addressed |
| CacheLifecycle.ClosePublishesContentAddressed | lib/cache_file.go:203-226 | from a coherent entry, Close keeps every blob named by the hash of its content, and a publishing Close stores exactly the written bytes under their hash |
| CacheLifecycle.WriteAllAppends | lib/cache_file.go:126-135 | successive Writes append every chunk, in call order, to both the temp file and the accumulator |
| CacheLifecycle.FirstWriteOpens | lib/cache_file.go:126-135 | the first Write to a fresh entry opens a new temp file holding exactly those bytes, and accumulates the same bytes |
| CacheLifecycle.WriteAllFromFresh | lib/cache_file.go:126-135 | a fresh entry written in chunks holds one new temp file with their concatenation, has accumulated the same bytes, and nothing else in the filesystem changed |
| CacheLifecycle.CloseOfFirstWrites | lib/cache_file.go:203-226 | closing such an entry publishes its bytes under their hash, gives back the temp name, and records the hash under `_DATA_` |
| CacheLifecycle.WritesThenClosePublish | lib/cache_file.go:126-226 | a new entry written in chunks and then closed publishes their concatenation under its hash, and records that hash under `_DATA_` |
| CacheLifecycle.WriteFuncWithoutOutputPublishesNothing | lib/cache_file.go:160-166 | a producer that makes no file leaves the filesystem as it was, and the next Close publishes nothing |
| CacheLifecycle.InstallFindsHash | lib/cache_file.go:234-240 | from an entry keeping the invariant, Install never reaches "Failed to get hash" |
| CacheLifecycle.InstallLinksPublishedBlob | lib/cache_file.go:229-255 | after a successful Install of an entry with content, the path refers to the blob named by the entry's hash, and that blob's content hashes to its name |
| CacheLifecycle.UnchangedInstallKeepsMetadata | lib/cache_file.go:257-267 | Install of an unchanged, closed entry leaves every metadata record as it was |
| CacheLifecycle.HitStoreInstallKeepsMetadata | lib/cache_file.go:70-89 | a loaded hit, given new values with Store and then installed, does not rewrite metadata |
| CacheLifecycle.StoreAloneIsNotSaved | lib/cache_file.go:264-267 | Store on an entry whose `changed` flag is unset is not persisted by Save |
| CacheLifecycle.StoreSaveReload | lib/cache_file.go:264-295 | a value stored into a published entry and saved is found again by GetFile with any key that has the same op and details |
| CacheLifecycle.IdenticalContentSharesBlob | lib/cache_file.go:212-224 | two entries that wrote the same bytes publish one blob under one name and record the same `_DATA_` |
| CacheLifecycle.SecondInstallToSamePathFails | lib/cache_file.go:250-254 | a second Install to the same path fails at os.Symlink with "exists" |
| CacheLifecycle.SecondRunReusesBlob | lib/cache_file.go:70-262 | run one misses, writes and installs; run two hits that record, links the same blob, and leaves the metadata unchanged |
| CacheLifecycle.RetriedCloseAfterFailedRenameLosesHash | lib/cache_file.go:203-218 | after a failed rename, a retried Close succeeds without publishing, and Install reports "Failed to get hash" |
| CacheLifecycle.SaveAfterFailedCloseStoresUnloadableRecord | lib/cache_file.go:203-208 | after the temp file fails to close, Save persists a record without `_DATA_`, and the next GetFile panics |
| CacheLifecycle.CorrectedInstallFindsHash | lib/cache_file.go:229-240 | with the corrected Close, Install never reports "Failed to get hash" and the entry invariant survives every outcome |
| CacheLifecycle.CorrectedFailedCloseLeavesNothingToSave | lib/cache_file.go:264-295 | with the corrected Close, a failure before the rename leaves the entry unchanged, so Save writes nothing; after any failure, whatever Save writes can be loaded |
| CacheLifecycle.CorrectedCloseRetrySucceeds | lib/cache_file.go:185-226 | after any failure of the corrected Close on content still in its temp file, a Close that meets no fault succeeds, with the blob published under the hash of the content and that hash under `_DATA_` |
| CacheLifecycle.LinkAndSaveKeepsInvariant | lib/cache_file.go:234-261 | linking and saving keep the entry invariant |

## Findings

| source | as written | input that shows it | evidently intended | confidence | as-written member | corrected member |
|---|---|---|---|---|---|---|
| lib/cache_file.go:203-226 | `Close` sets `hash` before the rename and chmod, and sets `_DATA_` only after them | a `Close` whose `os.Rename` fails, then `Install` | hash, `_DATA_` and `changed` recorded together once the rename has published the blob, so a retried `Close` either publishes or finds the blob published | medium, not executed | CacheLifecycle.RetriedCloseAfterFailedRenameLosesHash | CacheFile.InstallCorrected |
| lib/cache_file.go:203-210 | `Close` sets `changed` before closing the temp file | a `Close` whose file close fails, then `Save`, then `GetFile` | `changed` set only once content is published, so `Save` never writes a record without `_DATA_` | medium, not executed | CacheLifecycle.SaveAfterFailedCloseStoresUnloadableRecord | CacheFile.CloseCorrected |

`Install` itself models the code as written. `InstallCorrected` is the
same function built on `CloseCorrected`. Under `CloseCorrected` the entry
invariant holds after every operation on every outcome
(`CorrectedCloseKeepsInvariant`, `CorrectedInstallFindsHash`,
`CorrectedFailedCloseLeavesNothingToSave`). A retried corrected Close
succeeds after any failure, the chmod failure included
(`CorrectedCloseRetrySucceeds`).

## Left out

- `registerAstTypes`, and the gob and JSON byte formats: gob is an exact round trip of the map, and JSON is the abstract `Cache.encodeKey`.
- The hash algorithm (`NewCacheHash` is not part of this model): `Cache.digest` is any function whose sums are non-empty.
- Temp-file name uniqueness: the name is a parameter that must be unused.
- Permissions: `os.Chmod(0400)` and `MkdirAll(0700)` appear only as calls that can fail.
- Hard link versus symbolic link: both are "a link to blob `h` at `path`". A symbolic link to a missing blob is allowed, as the fallback allows it.
- Metadata temp files: `Save`'s temp file, left behind when encoding or renaming fails, is not represented.
- Partial I/O: a failed `io.Copy` adds nothing to the accumulator. A failed write reports no byte count.
- CacheFile.Close and CacheFile.Dump: a failed `os.File.Close` is modelled as retryable. The handle is kept, as the code keeps it, and a later close may succeed. In Go, `os.File.Close` releases the descriptor even when it fails and errors on every later call, so in practice a close that has failed once keeps failing. The corrected Close releases the handle instead.
- CacheKeys.CalcHash: the panic when the JSON encoding fails (a modification time outside the years JSON can encode) is not modelled; the encoder is total.
- CacheKeys.GetDetails: a stat failure other than absence is not distinguished; a source is either in the world or not.
- CacheFile.GetFile: when loading fails, the key memo filled in during the attempt is not returned. Recomputing it gives the same value (`FingerprintDeterministic`).
- CacheKeys.FingerprintSensitive: holds under the stated assumption that the hash and the key encoder are injective.
- CacheLifecycle.WriteKeepsCoherent: stated for successful writes; it excludes a Write that reopens an entry left written but unpublished by `WriteFunc`, whose accumulator already holds bytes the new temp file lacks.
- `CacheFile.Hash()` (the accessor at lib/cache_file.go:181-183): this is the `hash` field of `Entry`.
- `time.Time` internals: a modification time is an integer.
- Logging, concurrency and cross-process races: each operation is one atomic step on the filesystem maps.
- lib/path.go and mkgomock/main.go are not part of this model.

=== FILE: cache_file.dfy ===
/** One cache entry (lib/cache_file.go): a handle bound to a fingerprint
    key that holds a named-value map, streams new content into a temp file
    while hashing it, publishes the file under the hex sum of its content,
    links the published blob into place and persists the map as metadata.

    Each Go method, which mutates its receiver and the filesystem and may
    return an error, is a function from the entry and the filesystem to an
    Outcome: the entry and filesystem afterwards, and the result. */
module CacheFile {
  import opened Errors
  import opened Hex
  import opened CacheKeys

  /** The reserved name under which an entry keeps its content hash. */
  const CacheData := "_DATA_"

  /** The values an entry stores. Values are opaque to the cache; `Nil`
      is Go's nil interface, which Get returns for a missing name. */
  datatype Value = Nil | Str(s: string) | Flags(flags: map<string, bool>) | Opaque(id: nat)

  /** The named-value map. gob encoding is taken to round-trip it
      exactly, so a metadata record holds the map itself. */
  type Data = map<string, Value>

  /** The directory tree under the cache root, plus the links installed
      outside it:
      - files: the blob area, blob name to content;
      - metadata: the metadata area, fingerprint to record;
      - temps: temp files being written in the blob area, by name;
      - installed: destination path to the name of the blob linked there. */
  datatype FS = FS(
    files: map<string, seq<byte>>,
    metadata: map<string, Data>,
    temps: map<string, seq<byte>>,
    installed: map<string, string>)

  /** CacheFile. `open` says whether a temp file handle is held; `acc` is
      everything fed to the hash accumulator so far; `hash` is "" until the
      content has been published. */
  datatype Entry = Entry(
    key: Key,
    open: bool,
    tmpName: string,
    written: bool,
    changed: bool,
    acc: seq<byte>,
    hash: string,
    data: Data)

  /** The entry and filesystem after an operation, and what it returned. */
  datatype Outcome<+T> = Outcome(entry: Entry, fs: FS, result: Result<T>)

  /** What a WriteFunc callback does when handed the temp path: the file it
      leaves there (if any) and the error it returns (if any). */
  datatype Producer = Producer(output: Option<seq<byte>>, err: Option<Error>)

  /** Install's calls fail independently in its three phases. */
  datatype InstallFaults = InstallFaults(close: set<Syscall>, link: set<Syscall>, save: set<Syscall>)

  /** A metadata record that loadFile can take: the reserved name holds a
      string (anything else fails the type assertion). */
  predicate ValidRecord(d: Data) {
    CacheData in d && d[CacheData].Str?
  }

  /** An entry with no content hash, nothing written and no temp file. */
  predicate Fresh(e: Entry) {
    && !e.open && !e.written && !e.changed
    && e.acc == [] && e.hash == "" && e.data == map[]
  }

  /** Nothing for Close to publish: no temp file open and either nothing
      written or the content already published. */
  predicate Closed(e: Entry) {
    !e.open && (!e.written || e.hash != "")
  }

  /** loadFile: read and decode the metadata record named by the key's
      fingerprint, and take the content hash from it. */
  function LoadFile(c: Cache, fs: FS, key: Key, faults: set<Syscall>): (r: Result<Entry>)
    ensures KeyHash(c, key).0 !in fs.metadata ==> r == Err(NotExist)
    ensures r.Ok? <==>
      && KeyHash(c, key).0 in fs.metadata
      && Open !in faults && GobDecode !in faults
      && ValidRecord(fs.metadata[KeyHash(c, key).0])
    ensures r.Ok? ==>
      && r.value.data == fs.metadata[KeyHash(c, key).0]
      && Str(r.value.hash) == r.value.data[CacheData]
      && Closed(r.value) && !r.value.changed && r.value.acc == []
      && r.value.key == KeyHash(c, key).1
  {
    var (fp, key') := KeyHash(c, key);
    if fp !in fs.metadata then Err(NotExist)
    else if Open in faults then Err(Failed(Open))
    else if GobDecode in faults then Err(Cerr("gob.Decode", Failed(GobDecode)))
    else
      var data := fs.metadata[fp];
      if !ValidRecord(data) then Err(Panic("interface conversion: interface {} is not string"))
      else Ok(Entry(key', false, "", false, false, [], data[CacheData].s, data))
  }

  /** GetFile: a loaded entry on a hit, a fresh entry on a miss, and any
      other failure to load returned (wrapped), never turned into a miss. */
  function GetFile(c: Cache, fs: FS, key: Key, faults: set<Syscall>): (r: Result<Entry>)
    ensures KeyHash(c, key).0 !in fs.metadata ==> r.Ok? && Fresh(r.value) && r.value.key == KeyHash(c, key).1
    ensures KeyHash(c, key).0 in fs.metadata ==>
      && (r.Ok? <==> Open !in faults && GobDecode !in faults && ValidRecord(fs.metadata[KeyHash(c, key).0]))
      && (r.Ok? ==>
           && r.value.data == fs.metadata[KeyHash(c, key).0]
           && Str(r.value.hash) == r.value.data[CacheData]
           && !r.value.changed && !r.value.written)
      && (r.Err? ==> !IsNotExist(r.error))
  {
    match LoadFile(c, fs, key, faults)
    case Ok(e) => Ok(e)
    case Err(err) =>
      if err.Panic? then Err(err)
      else if !IsNotExist(err) then Err(Cerr("loadFile", err))
      else Ok(Entry(KeyHash(c, key).1, false, "", false, false, [], "", map[]))
  }

  /** open: make a new empty temp file in the blob area and hold it. */
  function OpenTemp(e: Entry, fs: FS, tmp: string, faults: set<Syscall>): (o: Outcome<()>)
    requires tmp !in fs.temps
    ensures o.result.Ok? <==> MkdirAll !in faults && TempFile !in faults
    ensures o.result.Ok? ==>
      && o.entry == e.(open := true, tmpName := tmp)
      && o.fs == fs.(temps := fs.temps[tmp := []])
    ensures o.result.Err? ==> o.entry == e && o.fs == fs
  {
    if MkdirAll in faults then Outcome(e, fs, Err(Cerr("os.MkdirAll", Failed(MkdirAll))))
    else if TempFile in faults then Outcome(e, fs, Err(Cerr("TempFile", Failed(TempFile))))
    else Outcome(e.(open := true, tmpName := tmp), fs.(temps := fs.temps[tmp := []]), Ok(()))
  }

  /** dump: close and delete the temp file, if one is held. */
  function Dump(e: Entry, fs: FS, faults: set<Syscall>): (o: Outcome<()>)
    ensures !e.open ==> o == Outcome(e, fs, Ok(()))
    ensures o.result.Ok? ==> !o.entry.open && o.entry == e.(open := false)
    ensures o.result.Ok? && e.open ==> o.fs == fs.(temps := fs.temps - {e.tmpName})
    ensures o.result.Err? ==> o.fs == fs
    // it fails at the close (keeping the handle) or at the removal (having dropped it)
    ensures e.open ==> (o.result.Ok? <==> FileClose !in faults && e.tmpName in fs.temps && Remove !in faults)
    ensures e.open && FileClose in faults ==> o == Outcome(e, fs, Err(Cerr("os.File.Close", Failed(FileClose))))
    ensures e.open && FileClose !in faults ==> !o.entry.open
    ensures e.open && FileClose !in faults && e.tmpName !in fs.temps ==> o.result == Err(Cerr("os.Remove", NotExist))
    ensures o.entry.(open := e.open) == e
    ensures o.fs.files == fs.files && o.fs.metadata == fs.metadata && o.fs.installed == fs.installed
  {
    if !e.open then Outcome(e, fs, Ok(()))
    else if FileClose in faults then Outcome(e, fs, Err(Cerr("os.File.Close", Failed(FileClose))))
    else
      var e' := e.(open := false);
      if e.tmpName !in fs.temps then Outcome(e', fs, Err(Cerr("os.Remove", NotExist)))
      else if Remove in faults then Outcome(e', fs, Err(Cerr("os.Remove", Failed(Remove))))
      else Outcome(e', fs.(temps := fs.temps - {e.tmpName}), Ok(()))
  }

  /** Write: open a temp file unless one is held, mark the entry written,
      then feed the bytes to the temp file and to the hash accumulator. */
  function Write(e: Entry, fs: FS, p: seq<byte>, tmp: string, faults: set<Syscall>): (o: Outcome<nat>)
    requires !e.open ==> tmp !in fs.temps
    ensures o.result.Ok? <==> (e.open || (MkdirAll !in faults && TempFile !in faults)) && FileWrite !in faults
    ensures o.result.Ok? ==>
      && o.result.value == |p|
      && o.entry.written && o.entry.open
      && o.entry.acc == e.acc + p
    // a temp file is opened only when none is held
    ensures e.open ==> o.entry.tmpName == e.tmpName && o.fs.temps.Keys == fs.temps.Keys
    ensures !e.open && o.entry.open ==> o.entry.tmpName == tmp && tmp in o.fs.temps && o.fs.temps == fs.temps[tmp := o.fs.temps[tmp]]
    // the file receives the same bytes as the accumulator
    ensures o.result.Ok? && !e.open ==> o.fs.temps[tmp] == p
    ensures o.result.Ok? && e.open && e.tmpName in fs.temps ==>
      o.fs.temps == fs.temps[e.tmpName := fs.temps[e.tmpName] + p]
    ensures o.result.Err? ==> o.entry.acc == e.acc
    ensures o.entry.(written := e.written, open := e.open, tmpName := e.tmpName, acc := e.acc) == e
    ensures o.fs.files == fs.files && o.fs.metadata == fs.metadata && o.fs.installed == fs.installed
  {
    var held := if e.open then Outcome(e, fs, Ok(())) else OpenTemp(e, fs, tmp, faults);
    if held.result.Err? then Outcome(e, fs, Err(Cerr("cf.open", held.result.error)))
    else WriteHeld(held.entry.(written := true), held.fs, p, faults)
  }

  /** The write through io.MultiWriter once a temp file is held: the file
      first, then the accumulator; a failed file write reaches neither. A
      file already deleted takes the bytes without showing them. */
  function WriteHeld(e: Entry, fs: FS, p: seq<byte>, faults: set<Syscall>): (o: Outcome<nat>)
    ensures o.result.Ok? <==> FileWrite !in faults
    ensures o.result.Ok? ==> o.result.value == |p| && o.entry == e.(acc := e.acc + p)
    ensures o.result.Ok? && e.tmpName in fs.temps ==> o.fs == fs.(temps := fs.temps[e.tmpName := fs.temps[e.tmpName] + p])
    ensures o.result.Ok? && e.tmpName !in fs.temps ==> o.fs == fs
    ensures o.result.Err? ==> o.entry == e && o.fs == fs
  {
    if FileWrite in faults then Outcome(e, fs, Err(Failed(FileWrite)))
    else if e.tmpName in fs.temps then
      Outcome(e.(acc := e.acc + p), fs.(temps := fs.temps[e.tmpName := fs.temps[e.tmpName] + p]), Ok(|p|))
    else Outcome(e.(acc := e.acc + p), fs, Ok(|p|))
  }

  /** WriteFunc: hand a fresh temp path to a producer that makes the file
      itself, then feed that file to the hash accumulator. A producer that
      makes no file is not an error: the entry is then marked unwritten. */
  function WriteFunc(e: Entry, fs: FS, tmp: string, w: Producer, faults: set<Syscall>): (o: Outcome<()>)
    requires tmp !in fs.temps
    ensures w.err.None? && w.output.None? && MkdirAll !in faults && TempFile !in faults && FileClose !in faults && Remove !in faults ==>
      && o.result.Ok?
      && o.entry == e.(written := false, open := false, tmpName := tmp)
      && o.fs == fs
    ensures o.result.Ok? && w.output.Some? ==>
      && o.entry.written && !o.entry.open && o.entry.tmpName == tmp
      && o.fs.temps == fs.temps[tmp := w.output.value]
      && o.entry.acc == e.acc + w.output.value
    ensures o.result.Ok? <==>
      && MkdirAll !in faults && TempFile !in faults && FileClose !in faults && Remove !in faults
      && w.err.None? && (w.output.Some? ==> Open !in faults && Copy !in faults)
    ensures o.result.Err? ==> o.entry.acc == e.acc
    ensures o.entry.(written := e.written, open := e.open, tmpName := e.tmpName, acc := e.acc) == e
    ensures o.fs.files == fs.files && o.fs.metadata == fs.metadata && o.fs.installed == fs.installed
  {
    var e0 := e.(written := true);
    var held := OpenTemp(e0, fs, tmp, faults);
    if held.result.Err? then Outcome(e0, fs, Err(Cerr("cf.open", held.result.error)))
    else ProduceInto(held.entry, held.fs, w, faults)
  }

  /** The part of WriteFunc after the temp file is made: release it (the
      producer makes the file itself), then run the producer. */
  function ProduceInto(e: Entry, fs: FS, w: Producer, faults: set<Syscall>): (o: Outcome<()>)
    requires e.open && e.tmpName in fs.temps
    ensures o.result.Ok? <==>
      && FileClose !in faults && Remove !in faults && w.err.None?
      && (w.output.Some? ==> Open !in faults && Copy !in faults)
    ensures o.result.Ok? ==> !o.entry.open
    ensures o.result.Ok? && w.output.Some? ==>
      && o.entry == e.(open := false, acc := e.acc + w.output.value)
      && o.fs.temps == fs.temps[e.tmpName := w.output.value]
    ensures o.result.Ok? && w.output.None? ==>
      && o.entry == e.(open := false, written := false)
      && o.fs.temps == fs.temps - {e.tmpName}
    ensures o.result.Err? ==> o.entry.acc == e.acc
    ensures o.entry.(open := e.open, written := e.written, acc := e.acc) == e
    ensures o.fs.files == fs.files && o.fs.metadata == fs.metadata && o.fs.installed == fs.installed
  {
    var dumped := Dump(e, fs, faults);
    if dumped.result.Err? then Outcome(dumped.entry, dumped.fs, Err(Cerr("f.dump", dumped.result.error)))
    else RunProducer(dumped.entry, dumped.fs, w, faults)
  }

  /** The part of WriteFunc after the temp file is released: run the
      producer on the temp path, then read whatever it left there into the
      accumulator. */
  function RunProducer(e: Entry, fs: FS, w: Producer, faults: set<Syscall>): (o: Outcome<()>)
    ensures o.fs == if w.output.Some? then fs.(temps := fs.temps[e.tmpName := w.output.value]) else fs
    ensures o.result.Ok? <==> w.err.None? && (e.tmpName in o.fs.temps ==> Open !in faults && Copy !in faults)
    ensures o.result.Ok? && e.tmpName in o.fs.temps ==> o.entry == e.(acc := e.acc + o.fs.temps[e.tmpName])
    ensures o.result.Ok? && e.tmpName !in o.fs.temps ==> o.entry == e.(written := false)
    ensures o.result.Err? ==> o.entry == e
  {
    var fs1 := if w.output.Some? then fs.(temps := fs.temps[e.tmpName := w.output.value]) else fs;
    if w.err.Some? then Outcome(e, fs1, Err(Cerr("w", w.err.value)))
    else if e.tmpName !in fs1.temps then Outcome(e.(written := false), fs1, Ok(()))
    else if Open in faults then Outcome(e, fs1, Err(Cerr("os.Open", Failed(Open))))
    else if Copy in faults then Outcome(e, fs1, Err(Cerr("io.Copy", Failed(Copy))))
    else Outcome(e.(acc := e.acc + fs1.temps[e.tmpName]), fs1, Ok(()))
  }

  /** Close as written: with nothing to publish it only discards a held temp
      file. Otherwise it marks the entry changed, closes the temp file,
      takes the hex sum of everything written, renames the temp file to
      that name in the blob area, makes it read-only and records the sum
      under the reserved name. `changed` and `hash` are set before the
      steps that can fail. */
  function Close(c: Cache, e: Entry, fs: FS, faults: set<Syscall>): (o: Outcome<()>)
    // nothing to publish: hash, data and both areas stay as they are
    ensures !e.written || e.hash != "" ==>
      && o.entry.(open := e.open) == e
      && (o.result.Ok? ==> o.fs == fs.(temps := if e.open then fs.temps - {e.tmpName} else fs.temps))
      && (o.result.Err? ==> o.fs == fs)
      && (e.open ==> (o.result.Ok? <==> FileClose !in faults && e.tmpName in fs.temps && Remove !in faults))
      && (e.open && FileClose in faults ==> o.entry == e)
      && (e.open && FileClose !in faults ==> !o.entry.open)
    ensures Closed(e) ==> o == Outcome(e, fs, Ok(()))
    // publishing: the blob's name is the sum of what was written
    ensures e.written && e.hash == "" ==>
      (o.result.Ok? <==> (!e.open || FileClose !in faults) && e.tmpName in fs.temps && Rename !in faults && Chmod !in faults)
    ensures e.written && e.hash == "" && o.result.Ok? ==>
      && o.entry.hash == Sum(c, e.acc)
      && o.fs.files == fs.files[o.entry.hash := fs.temps[e.tmpName]]
      && o.fs.temps == fs.temps - {e.tmpName}
      && o.entry.data == e.data[CacheData := Str(o.entry.hash)]
      && o.entry.changed
    // a failed publish: marked changed, `_DATA_` never set; a failed file
    // close keeps the handle and changes no file, a later failure has set
    // the hash, and only a chmod failure leaves the blob published
    ensures e.written && e.hash == "" && o.result.Err? ==>
      && o.entry.(changed := e.changed, open := e.open, hash := e.hash) == e
      && o.entry.changed
      && if e.open && FileClose in faults then
           o.entry.open && o.entry.hash == "" && o.fs == fs
         else
           && !o.entry.open && o.entry.hash == Sum(c, e.acc)
           && if e.tmpName in fs.temps && Rename !in faults
              then o.fs == fs.(files := fs.files[Sum(c, e.acc) := fs.temps[e.tmpName]], temps := fs.temps - {e.tmpName})
              else o.fs == fs
    ensures o.result.Ok? ==> Closed(o.entry)
    ensures o.entry.key == e.key
    ensures o.fs.metadata == fs.metadata && o.fs.installed == fs.installed
  {
    if !e.written || e.hash != "" then CloseUnpublished(e, fs, faults)
    else
      var e1 := e.(changed := true);
      if e1.open && FileClose in faults then Outcome(e1, fs, Err(Cerr("os.File.Close", Failed(FileClose))))
      else
        var e2 := e1.(open := false, hash := Sum(c, e.acc));
        match Publish(fs, e.tmpName, e2.hash, faults)
        case Err(err) => Outcome(e2, fs, Err(err))
        case Ok(fs') =>
          if Chmod in faults then Outcome(e2, fs', Err(Cerr("os.Chmod", Failed(Chmod))))
          else Outcome(e2.(data := e.data[CacheData := Str(e2.hash)]), fs', Ok(()))
  }

  /** Close as evidently intended: the entry is marked changed and given
      its hash and reserved value together, and only once the rename has
      published the blob (a failing chmod after that leaves the blob
      published and recorded). A Close that fails before the rename leaves
      the entry's published state as it was, so a retried Close tries to
      publish again; the temp file's handle is released even when closing it
      fails, so the retry does not close it a second time. */
  function CloseCorrected(c: Cache, e: Entry, fs: FS, faults: set<Syscall>): (o: Outcome<()>)
    ensures !e.written || e.hash != "" ==> o == CloseUnpublished(e, fs, faults)
    ensures e.written && e.hash == "" ==>
      (o.result.Ok? <==> (!e.open || FileClose !in faults) && e.tmpName in fs.temps && Rename !in faults && Chmod !in faults)
    // recorded exactly when the rename has published the blob
    ensures e.written && e.hash == "" ==>
      (o.entry.hash != "" <==> (!e.open || FileClose !in faults) && e.tmpName in fs.temps && Rename !in faults)
    ensures e.written && e.hash == "" && o.entry.hash != "" ==>
      && o.entry == e.(open := false, changed := true, hash := Sum(c, e.acc), data := e.data[CacheData := Str(Sum(c, e.acc))])
      && o.fs == fs.(files := fs.files[o.entry.hash := fs.temps[e.tmpName]], temps := fs.temps - {e.tmpName})
    // a failure before the rename changes neither the entry's published state nor the filesystem
    ensures e.written && e.hash == "" && o.entry.hash == "" ==> o.entry.(open := e.open) == e && o.fs == fs
    // the handle is released whatever happens, as os.File.Close releases it even when it fails
    ensures e.written && e.hash == "" ==> !o.entry.open
    ensures o.result.Ok? ==> Closed(o.entry)
    ensures o.entry.key == e.key
    ensures o.fs.metadata == fs.metadata && o.fs.installed == fs.installed
  {
    if !e.written || e.hash != "" then CloseUnpublished(e, fs, faults)
    else if e.open && FileClose in faults then Outcome(e.(open := false), fs, Err(Cerr("os.File.Close", Failed(FileClose))))
    else
      var e1 := e.(open := false);
      var h := Sum(c, e.acc);
      match Publish(fs, e.tmpName, h, faults)
      case Err(err) => Outcome(e1, fs, Err(err))
      case Ok(fs') =>
        var e2 := e1.(changed := true, hash := h, data := e.data[CacheData := Str(h)]);
        if Chmod in faults then Outcome(e2, fs', Err(Cerr("os.Chmod", Failed(Chmod))))
        else Outcome(e2, fs', Ok(()))
  }

  /** The branches of Close that publish nothing: discard the temp file. */
  function CloseUnpublished(e: Entry, fs: FS, faults: set<Syscall>): (o: Outcome<()>)
    ensures o.entry.(open := e.open) == e
    ensures !e.open ==> o == Outcome(e, fs, Ok(()))
    ensures o.result.Ok? ==> !o.entry.open
    // the held temp file, and nothing else, is deleted; a failure deletes nothing
    ensures o.result.Ok? ==> o.fs == fs.(temps := if e.open then fs.temps - {e.tmpName} else fs.temps)
    ensures o.result.Err? ==> o.fs == fs
    // the dump's success condition and handle, its error wrapped in "f.dump"
    ensures e.open ==> (o.result.Ok? <==> FileClose !in faults && e.tmpName in fs.temps && Remove !in faults)
    ensures e.open && FileClose in faults ==> o == Outcome(e, fs, Err(Cerr("f.dump", Cerr("os.File.Close", Failed(FileClose)))))
    ensures e.open && FileClose !in faults ==> !o.entry.open
  {
    var d := Dump(e, fs, faults);
    if d.result.Err? then Outcome(d.entry, d.fs, Err(Cerr("f.dump", d.result.error)))
    else Outcome(d.entry, d.fs, Ok(()))
  }

  /** The rename that publishes a temp file as a blob (replacing any blob of
      that name, as rename does). */
  function Publish(fs: FS, tmpName: string, name: string, faults: set<Syscall>): (r: Result<FS>)
    ensures r.Ok? <==> tmpName in fs.temps && Rename !in faults
    ensures r.Ok? ==>
      r.value == fs.(files := fs.files[name := fs.temps[tmpName]], temps := fs.temps - {tmpName})
  {
    if tmpName !in fs.temps then Err(Cerr("os.Rename", NotExist))
    else if Rename in faults then Err(Cerr("os.Rename", Failed(Rename)))
    else Ok(fs.(files := fs.files[name := fs.temps[tmpName]], temps := fs.temps - {tmpName}))
  }

  /** Install: Close, then link the entry's blob to `path` if the entry has
      content, then Save. */
  function Install(c: Cache, e: Entry, fs: FS, path: string, faults: InstallFaults): (o: Outcome<()>)
    // a Close failure is reported wrapped, before anything is linked or saved
    ensures Close(c, e, fs, faults.close).result.Err? ==>
      && o.result == Err(Cerr("f.Close", Close(c, e, fs, faults.close).result.error))
      && o.fs.installed == fs.installed
    // success: closed, and an entry with content is linked at a path that was free
    ensures o.result.Ok? ==> Closed(o.entry)
    ensures o.result.Ok? && (o.entry.written || HasData(o.entry)) ==>
      && path !in fs.installed && path in o.fs.installed
      && CacheData in o.entry.data && o.entry.data[CacheData] == Str(o.fs.installed[path])
    // only `path` is ever linked; the links already there stay as they are
    ensures || o.fs.installed == fs.installed
            || (path !in fs.installed && path in o.fs.installed && o.fs.installed == fs.installed[path := o.fs.installed[path]])
    // metadata changes only through Save of a changed entry, under the key's fingerprint
    ensures o.result.Ok? && !o.entry.changed ==> o.fs.metadata == fs.metadata
    ensures o.result.Ok? && o.entry.changed ==> o.fs.metadata == fs.metadata[KeyHash(c, e.key).0 := o.entry.data]
    ensures o.result.Err? ==> o.fs.metadata == fs.metadata
    // it succeeds exactly when Close and then linking and saving succeed
    ensures o.result.Ok? <==>
      && Close(c, e, fs, faults.close).result.Ok?
      && LinkAndSaveSucceeds(Close(c, e, fs, faults.close).entry, Close(c, e, fs, faults.close).fs, path, faults)
    // every failure names the step that failed
    ensures o.result.Err? ==>
      || o.result.error == Message("Failed to get hash")
      || o.result.error.Panic?
      || (o.result.error.Cerr? && o.result.error.op in {"f.Close", "os.MkdirAll", "os.Symlink", "f.Save"})
    // an entry without content is linked nowhere
    ensures o.result.Ok? && !o.entry.written && !HasData(o.entry) ==> o.fs.installed == fs.installed
  {
    var cl := Close(c, e, fs, faults.close);
    if cl.result.Err? then Outcome(cl.entry, cl.fs, Err(Cerr("f.Close", cl.result.error)))
    else LinkAndSave(c, cl.entry, cl.fs, path, faults)
  }

  /** Install over the corrected Close; it promises what Install does. */
  function InstallCorrected(c: Cache, e: Entry, fs: FS, path: string, faults: InstallFaults): (o: Outcome<()>)
    ensures CloseCorrected(c, e, fs, faults.close).result.Err? ==>
      && o.result == Err(Cerr("f.Close", CloseCorrected(c, e, fs, faults.close).result.error))
      && o.fs.installed == fs.installed
    ensures o.result.Ok? ==> Closed(o.entry)
    ensures o.result.Ok? && (o.entry.written || HasData(o.entry)) ==>
      && path !in fs.installed && path in o.fs.installed
      && CacheData in o.entry.data && o.entry.data[CacheData] == Str(o.fs.installed[path])
    ensures || o.fs.installed == fs.installed
            || (path !in fs.installed && path in o.fs.installed && o.fs.installed == fs.installed[path := o.fs.installed[path]])
    ensures o.result.Ok? && !o.entry.changed ==> o.fs.metadata == fs.metadata
    ensures o.result.Ok? && o.entry.changed ==> o.fs.metadata == fs.metadata[KeyHash(c, e.key).0 := o.entry.data]
    ensures o.result.Err? ==> o.fs.metadata == fs.metadata
    // it succeeds exactly when the corrected Close and then linking and saving succeed
    ensures o.result.Ok? <==>
      && CloseCorrected(c, e, fs, faults.close).result.Ok?
      && LinkAndSaveSucceeds(CloseCorrected(c, e, fs, faults.close).entry, CloseCorrected(c, e, fs, faults.close).fs, path, faults)
    // every failure names the step that failed
    ensures o.result.Err? ==>
      || o.result.error == Message("Failed to get hash")
      || o.result.error.Panic?
      || (o.result.error.Cerr? && o.result.error.op in {"f.Close", "os.MkdirAll", "os.Symlink", "f.Save"})
    // an entry without content is linked nowhere
    ensures o.result.Ok? && !o.entry.written && !HasData(o.entry) ==> o.fs.installed == fs.installed
  {
    var cl := CloseCorrected(c, e, fs, faults.close);
    if cl.result.Err? then Outcome(cl.entry, cl.fs, Err(Cerr("f.Close", cl.result.error)))
    else LinkAndSave(c, cl.entry, cl.fs, path, faults)
  }

  /** The linking step of Install can succeed: the entry has its hash under
      the reserved name as a string, the link directory can be made, `path`
      is free and a hard or else a symbolic link can be made there. */
  predicate CanLink(e: Entry, fs: FS, path: string, faults: set<Syscall>) {
    && CacheData in e.data && e.data[CacheData].Str?
    && MkdirAll !in faults && path !in fs.installed
    && (Symlink !in faults || (Link !in faults && e.data[CacheData].s in fs.files))
  }

  /** When the part of Install after Close succeeds: an entry with content
      can be linked, and a changed entry can be saved. */
  predicate LinkAndSaveSucceeds(e: Entry, fs: FS, path: string, faults: InstallFaults) {
    && ((e.written || HasData(e)) ==> CanLink(e, fs, path, faults.link))
    && (e.changed ==> {MkdirAll, TempFile, GobEncode, Rename} !! faults.save)
  }

  /** The part of Install after Close: when the entry was written or carries
      a content hash, link the blob named by that hash to `path` (a hard
      link, or a symbolic one when that fails); in every case that gets
      this far, Save. */
  function LinkAndSave(c: Cache, e: Entry, fs: FS, path: string, faults: InstallFaults): (o: Outcome<()>)
    ensures (e.written || HasData(e)) && CacheData !in e.data ==>
      o == Outcome(e, fs, Err(Message("Failed to get hash")))
    ensures o.result.Ok? && (e.written || HasData(e)) ==>
      && CacheData in e.data && e.data[CacheData].Str?
      && path !in fs.installed
      && o.fs.installed == fs.installed[path := e.data[CacheData].s]
    ensures o.result.Ok? && !e.written && !HasData(e) ==> o.fs.installed == fs.installed
    ensures o.result.Ok? ==> o == Save(c, e, fs.(installed := o.fs.installed), faults.save)
    ensures o.result.Err? ==> o.fs.metadata == fs.metadata
    ensures o.entry.(key := e.key) == e
    ensures o.result.Ok? <==> LinkAndSaveSucceeds(e, fs, path, faults)
    // the errors of the linking steps, in order, then Save's wrapped
    ensures (e.written || HasData(e)) && CacheData in e.data ==>
      && (MkdirAll in faults.link ==> o.result == Err(Cerr("os.MkdirAll", Failed(MkdirAll))))
      && (MkdirAll !in faults.link && !e.data[CacheData].Str? ==>
            o.result == Err(Panic("interface conversion: interface {} is not string")))
      && (MkdirAll !in faults.link && e.data[CacheData].Str? && path in fs.installed ==>
            o.result == Err(Cerr("os.Symlink", Exist)))
      && (MkdirAll !in faults.link && e.data[CacheData].Str? && path !in fs.installed
          && Symlink in faults.link && (Link in faults.link || e.data[CacheData].s !in fs.files) ==>
            o.result == Err(Cerr("os.Symlink", Failed(Symlink))))
    ensures ((e.written || HasData(e)) ==> CanLink(e, fs, path, faults.link)) && Save(c, e, fs, faults.save).result.Err? ==>
      o.result == Err(Cerr("f.Save", Save(c, e, fs, faults.save).result.error))
    ensures o.fs.files == fs.files && o.fs.temps == fs.temps
  {
    if e.written || HasData(e) then
      if CacheData !in e.data then Outcome(e, fs, Err(Message("Failed to get hash")))
      else if MkdirAll in faults.link then Outcome(e, fs, Err(Cerr("os.MkdirAll", Failed(MkdirAll))))
      else
        match e.data[CacheData]
        case Str(h) =>
          (match LinkBlob(fs, h, path, faults.link)
           case Err(err) => Outcome(e, fs, Err(Cerr("os.Symlink", err)))
           case Ok(fs') =>
             var s := Save(c, e, fs', faults.save);
             if s.result.Err? then Outcome(s.entry, s.fs, Err(Cerr("f.Save", s.result.error))) else s)
        case _ => Outcome(e, fs, Err(Panic("interface conversion: interface {} is not string")))
    else
      var s := Save(c, e, fs, faults.save);
      if s.result.Err? then Outcome(s.entry, s.fs, Err(Cerr("f.Save", s.result.error))) else s
  }

  /** os.Link, falling back to os.Symlink: either way a link to blob `name`
      appears at `path`, unless something is there already. A hard link
      needs the blob to exist; a symbolic link does not. */
  function LinkBlob(fs: FS, name: string, path: string, faults: set<Syscall>): (r: Result<FS>)
    ensures r.Ok? <==> path !in fs.installed && (Symlink !in faults || (Link !in faults && name in fs.files))
    ensures r.Ok? ==> r.value == fs.(installed := fs.installed[path := name])
    ensures path in fs.installed ==> r == Err(Exist)
  {
    if path in fs.installed then Err(Exist)
    else if Link !in faults && name in fs.files then Ok(fs.(installed := fs.installed[path := name]))
    else if Symlink in faults then Err(Failed(Symlink))
    else Ok(fs.(installed := fs.installed[path := name]))
  }

  /** Save: when the entry is changed, write its whole map as the record
      named by the key's fingerprint (through a temp file renamed into
      place, so a record is replaced whole); otherwise do nothing. */
  function Save(c: Cache, e: Entry, fs: FS, faults: set<Syscall>): (o: Outcome<()>)
    ensures !e.changed ==> o == Outcome(e, fs, Ok(()))
    ensures o.result.Ok? <==> !e.changed || {MkdirAll, TempFile, GobEncode, Rename} !! faults
    ensures o.result.Ok? && e.changed ==>
      o.fs.metadata == fs.metadata[KeyHash(c, e.key).0 := e.data]
    ensures o.result.Err? ==> o.fs == fs
    ensures o.fs.(metadata := fs.metadata) == fs
    ensures o.entry.(key := e.key) == e && o.entry.key.op == e.key.op && o.entry.key.files == e.key.files
  {
    if !e.changed then Outcome(e, fs, Ok(()))
    else if MkdirAll in faults then Outcome(e, fs, Err(Cerr("os.MkdirAll", Failed(MkdirAll))))
    else if TempFile in faults then Outcome(e, fs, Err(Cerr("TempFile", Failed(TempFile))))
    else if GobEncode in faults then Outcome(e, fs, Err(Cerr("gob.Encode", Failed(GobEncode))))
    else
      var (fp, key') := KeyHash(c, e.key);
      var e' := e.(key := key');
      if Rename in faults then Outcome(e', fs, Err(Cerr("os.Rename", Failed(Rename))))
      else Outcome(e', fs.(metadata := fs.metadata[fp := e.data]), Ok(()))
  }

  /** Has: every given name is present; stops at the first that is not. */
  function Has(data: Data, names: seq<string>): (b: bool)
    ensures b <==> forall i :: 0 <= i < |names| ==> names[i] in data
  {
    if |names| == 0 then true
    else if names[0] !in data then false
    else Has(data, names[1..])
  }

  /** HasData: the entry carries a content hash. */
  function HasData(e: Entry): (b: bool)
    ensures b <==> CacheData in e.data
  {
    Has(e.data, [CacheData])
  }

  /** Store: set one named value. Names starting with '_' are reserved and
      refused with a panic; so is the empty name, which the first-character
      test cannot index. Nothing else about the entry changes. */
  function Store(e: Entry, name: string, v: Value): (r: Result<Entry>)
    ensures r.Ok? <==> |name| > 0 && name[0] != '_'
    ensures r.Err? ==> r.error.Panic?
    ensures |name| > 0 && name[0] == '_' ==> r == Err(Panic("Attempt to set private data member: " + name))
    ensures r.Ok? ==>
      && r.value.data.Keys == e.data.Keys + {name}
      && r.value.data[name] == v
      && (forall n :: n in e.data && n != name ==> r.value.data[n] == e.data[n])
      && r.value.(data := e.data) == e
  {
    if |name| == 0 then Err(Panic("runtime error: index out of range [0] with length 0"))
    else if name[0] == '_' then Err(Panic("Attempt to set private data member: " + name))
    else Ok(e.(data := e.data[name := v]))
  }

  /** Lookup: the value stored under `name` and whether there is one. */
  function Lookup(e: Entry, name: string): (r: (Value, bool))
    ensures r.1 <==> name in e.data
    ensures r.1 ==> r.0 == e.data[name]
    ensures !r.1 ==> r.0 == Nil
  {
    if name in e.data then (e.data[name], true) else (Nil, false)
  }

  /** Get: the value stored under `name`, nil when there is none (which a
      stored nil cannot be told apart from). */
  function Get(e: Entry, name: string): (v: Value)
    ensures v == Lookup(e, name).0
    ensures name in e.data ==> v == e.data[name]
  {
    if name in e.data then e.data[name] else Nil
  }
}

=== FILE: cache_keys.dfy ===
/** The fingerprint key of a cache lookup (lib/cache_keys.go): an operation
    name plus, for every declared source in order, its stat details and the
    hex sum of its content. The key's fingerprint is the hex sum of its JSON
    encoding, computed once and memoised in an unexported field. */
module CacheKeys {
  import opened Errors
  import opened Hex

  /** A modification time; the internals of time.Time are not modelled. */
  type Time = int

  /** cacheFileDetails: one source as it stood when the key was built. */
  datatype Details = Details(src: string, size: int, mode: nat, modTime: Time, hash: string)

  /** CacheFileKey. `memo` is the unexported `hash` field, "" until the
      fingerprint has been computed. */
  datatype Key = Key(op: string, files: seq<Details>, memo: string)

  /** The JSON encoder applied to a key; it sees the exported fields only. */
  type KeyEncoder = (string, seq<Details>) -> seq<byte>

  /** What a Cache brings to its keys and entries: the hash algorithm
      (NewCacheHash) and the encoder of keys. The directory tree under the
      cache root is modelled separately, as a value. */
  datatype Cache = Cache(digest: Hasher, encodeKey: KeyEncoder)

  /** A source file as the filesystem presents it: what os.Stat reports,
      its bytes, and whether it can be opened and read through. */
  datatype SourceFile = SourceFile(size: int, mode: nat, modTime: Time, content: seq<byte>, canOpen: bool, canRead: bool)

  /** The source files that exist, by path. */
  type World = map<string, SourceFile>

  /** hex.EncodeToString(h.Sum(nil)) after `bytes` went through a fresh
      hash: never "", since a digest is never empty. */
  function Sum(c: Cache, bytes: seq<byte>): (s: string)
    ensures |s| == 2 * |c.digest(bytes)|
    ensures s != ""
  {
    Encode(c.digest(bytes))
  }

  /** getDetails: stat the source, then stream its content through a fresh
      hash. The first failing step decides the error. */
  function GetDetails(c: Cache, world: World, path: string): (r: Result<Details>)
    ensures path !in world ==> r == Err(Cerr("os.Stat", NotExist))
    ensures r.Ok? <==> path in world && world[path].canOpen && world[path].canRead
    ensures r.Ok? ==>
      var f := world[path];
      && r.value.src == path
      && r.value.hash == Sum(c, f.content)
      && (r.value.size, r.value.mode, r.value.modTime) == (f.size, f.mode, f.modTime)
  {
    if path !in world then Err(Cerr("os.Stat", NotExist))
    else
      var f := world[path];
      if !f.canOpen then Err(Cerr("os.Open", Failed(Open)))
      else if !f.canRead then Err(Cerr("io.Copy", Failed(Copy)))
      else Ok(Details(path, f.size, f.mode, f.modTime, Sum(c, f.content)))
  }

  /** All sources can be described. */
  predicate AllAvailable(c: Cache, world: World, srcs: seq<string>) {
    forall i :: 0 <= i < |srcs| ==> GetDetails(c, world, srcs[i]).Ok?
  }

  /** `i` is the first source that cannot be described. */
  predicate FirstUnavailable(c: Cache, world: World, srcs: seq<string>, i: int) {
    && 0 <= i < |srcs|
    && GetDetails(c, world, srcs[i]).Err?
    && forall j :: 0 <= j < i ==> GetDetails(c, world, srcs[j]).Ok?
  }

  /** The loop of NewCacheFileKey: describe the sources in order, stopping
      at the first that fails, with the source's path added to the error. */
  function CollectDetails(c: Cache, world: World, srcs: seq<string>): (r: Result<seq<Details>>)
    ensures r.Ok? <==> AllAvailable(c, world, srcs)
    ensures r.Ok? ==>
      && |r.value| == |srcs|
      && forall i :: 0 <= i < |srcs| ==> Ok(r.value[i]) == GetDetails(c, world, srcs[i])
    ensures r.Err? ==> exists i ::
      && FirstUnavailable(c, world, srcs, i)
      && r.error == Cerr("c.getDetails(" + srcs[i] + ")", GetDetails(c, world, srcs[i]).error)
  {
    if |srcs| == 0 then Ok([])
    else
      match GetDetails(c, world, srcs[0])
      case Err(e) =>
        assert FirstUnavailable(c, world, srcs, 0);
        Err(Cerr("c.getDetails(" + srcs[0] + ")", e))
      case Ok(d) =>
        var rest := CollectDetails(c, world, srcs[1..]);
        match rest
        case Err(e) =>
          var i :| FirstUnavailable(c, world, srcs[1..], i)
                   && e == Cerr("c.getDetails(" + srcs[1..][i] + ")", GetDetails(c, world, srcs[1..][i]).error);
          assert FirstUnavailable(c, world, srcs, i + 1);
          Err(e)
        case Ok(ds) =>
          assert forall i :: 1 <= i < |srcs| ==> srcs[i] == srcs[1..][i - 1];
          Ok([d] + ds)
  }

  /** NewCacheFileKey: a key whose details follow the sources one for one,
      in order, with no fingerprint computed yet; no key at all when a
      source cannot be described. */
  function NewCacheFileKey(c: Cache, world: World, op: string, srcs: seq<string>): (r: Result<Key>)
    ensures r.Ok? <==> AllAvailable(c, world, srcs)
    ensures r.Ok? ==>
      && r.value.op == op
      && r.value.memo == ""
      && |r.value.files| == |srcs|
      && forall i :: 0 <= i < |srcs| ==>
           r.value.files[i].src == srcs[i] && Ok(r.value.files[i]) == GetDetails(c, world, srcs[i])
  {
    match CollectDetails(c, world, srcs)
    case Ok(files) => Ok(Key(op, files, ""))
    case Err(e) => Err(e)
  }

  /** The fingerprint of an operation over described sources: the hex sum
      of their encoding. */
  function Fingerprint(c: Cache, op: string, files: seq<Details>): (fp: string)
    ensures fp != ""
  {
    Sum(c, c.encodeKey(op, files))
  }

  /** calcHash: compute the fingerprint and store it in the key. */
  function CalcHash(c: Cache, k: Key): (k': Key)
    ensures k'.op == k.op && k'.files == k.files
    ensures k'.memo != ""
  {
    k.(memo := Fingerprint(c, k.op, k.files))
  }

  /** Hash: the memoised fingerprint and the key as it stands afterwards.
      A computed fingerprint is kept; a key that already has one is
      returned untouched. */
  function KeyHash(c: Cache, k: Key): (r: (string, Key))
    ensures r.0 != ""
    ensures r.1 == k.(memo := r.0)
    ensures k.memo != "" ==> r == (k.memo, k)
    ensures k.memo == "" ==> r.0 == Fingerprint(c, k.op, k.files)
  {
    if k.memo == "" then
      var k' := CalcHash(c, k);
      (k'.memo, k')
    else (k.memo, k)
  }

  /** The memo, when present, is the fingerprint of the exported fields:
      true of every key NewCacheFileKey builds and kept by KeyHash. */
  predicate ValidMemo(c: Cache, k: Key) {
    k.memo == "" || k.memo == Fingerprint(c, k.op, k.files)
  }

  ghost predicate DigestInjective(c: Cache) {
    forall a: seq<byte>, b: seq<byte> :: c.digest(a) == c.digest(b) ==> a == b
  }

  ghost predicate EncoderInjective(c: Cache) {
    forall o1, f1, o2, f2 :: c.encodeKey(o1, f1) == c.encodeKey(o2, f2) ==> o1 == o2 && f1 == f2
  }

  /** A second Hash returns the first one's fingerprint and changes nothing. */
  lemma HashIsMemoised(c: Cache, k: Key)
    ensures var (fp, k') := KeyHash(c, k); KeyHash(c, k') == (fp, k')
  {
  }

  /** Determinism: keys with the same operation and details have the same
      fingerprint, whatever the state of their memos. */
  lemma FingerprintDeterministic(c: Cache, k1: Key, k2: Key)
    requires ValidMemo(c, k1) && ValidMemo(c, k2)
    requires k1.op == k2.op && k1.files == k2.files
    ensures KeyHash(c, k1).0 == KeyHash(c, k2).0
    ensures ValidMemo(c, KeyHash(c, k1).1)
  {
  }

  /** Sensitivity: with an injective hash and encoding, the fingerprint
      changes whenever the operation or any field of any detail does. */
  lemma FingerprintSensitive(c: Cache, op1: string, f1: seq<Details>, op2: string, f2: seq<Details>)
    requires DigestInjective(c) && EncoderInjective(c)
    ensures Fingerprint(c, op1, f1) == Fingerprint(c, op2, f2) <==> op1 == op2 && f1 == f2
  {
    EncodeInjective(c.digest(c.encodeKey(op1, f1)), c.digest(c.encodeKey(op2, f2)));
  }

  /** Touching a source (a new modification time, the same content) changes
      the fingerprint of a key built over it. */
  lemma TouchChangesFingerprint(c: Cache, world: World, op: string, srcs: seq<string>, i: int, t: Time)
    requires DigestInjective(c) && EncoderInjective(c)
    requires 0 <= i < |srcs| && srcs[i] in world && t != world[srcs[i]].modTime
    requires NewCacheFileKey(c, world, op, srcs).Ok?
    ensures var touched := world[srcs[i] := world[srcs[i]].(modTime := t)];
      && NewCacheFileKey(c, touched, op, srcs).Ok?
      && var k1, k2 := NewCacheFileKey(c, world, op, srcs).value, NewCacheFileKey(c, touched, op, srcs).value;
         Fingerprint(c, op, k1.files) != Fingerprint(c, op, k2.files)
  {
    var touched := world[srcs[i] := world[srcs[i]].(modTime := t)];
    assert AllAvailable(c, touched, srcs) by {
      forall j | 0 <= j < |srcs|
        ensures GetDetails(c, touched, srcs[j]).Ok?
      {
        assert GetDetails(c, world, srcs[j]).Ok?;
      }
    }
    var k1, k2 := NewCacheFileKey(c, world, op, srcs).value, NewCacheFileKey(c, touched, op, srcs).value;
    assert k1.files[i].modTime != k2.files[i].modTime;
    FingerprintSensitive(c, op, k1.files, op, k2.files);
  }

  /** Changing the content of a source (same stat details) changes the
      fingerprint of a key built over it. */
  lemma ContentChangeChangesFingerprint(c: Cache, world: World, op: string, srcs: seq<string>, i: int, content: seq<byte>)
    requires DigestInjective(c) && EncoderInjective(c)
    requires 0 <= i < |srcs| && srcs[i] in world && content != world[srcs[i]].content
    requires NewCacheFileKey(c, world, op, srcs).Ok?
    ensures var edited := world[srcs[i] := world[srcs[i]].(content := content)];
      && NewCacheFileKey(c, edited, op, srcs).Ok?
      && var k1, k2 := NewCacheFileKey(c, world, op, srcs).value, NewCacheFileKey(c, edited, op, srcs).value;
         Fingerprint(c, op, k1.files) != Fingerprint(c, op, k2.files)
  {
    var edited := world[srcs[i] := world[srcs[i]].(content := content)];
    assert AllAvailable(c, edited, srcs) by {
      forall j | 0 <= j < |srcs|
        ensures GetDetails(c, edited, srcs[j]).Ok?
      {
        assert GetDetails(c, world, srcs[j]).Ok?;
      }
    }
    var k1, k2 := NewCacheFileKey(c, world, op, srcs).value, NewCacheFileKey(c, edited, op, srcs).value;
    EncodeInjective(c.digest(world[srcs[i]].content), c.digest(content));
    assert k1.files[i].hash != k2.files[i].hash;
    FingerprintSensitive(c, op, k1.files, op, k2.files);
  }
}

=== FILE: cache_lifecycle.dfy ===
/** Properties of a cache entry across its lifecycle (lib/cache_file.go):
    fresh or loaded, written, closed and published, installed and saved.
    The invariants are those the code relies on without checking:
    - EntryInvariant: a content hash, once set, is held under the reserved
      name, the reserved name holds nothing but the entry's hash, and an
      entry is only marked changed once it has a hash;
    - Coherent: the temp file holds exactly what went into the hash
      accumulator, so the blob's name will be the hash of its content;
    - ContentAddressed: every blob is named by the hash of its content;
    - RecordsValid: every metadata record can be loaded. */
module CacheLifecycle {
  import opened Errors
  import opened Hex
  import opened CacheKeys
  import opened CacheFile

  predicate EntryInvariant(e: Entry) {
    && (e.hash != "" ==> CacheData in e.data)
    && (CacheData in e.data ==> e.data[CacheData] == Str(e.hash))
    && (e.changed ==> e.hash != "")
  }

  predicate Coherent(e: Entry, fs: FS) {
    && (e.open ==> e.written)
    && (e.hash == "" && e.written ==> e.tmpName in fs.temps && fs.temps[e.tmpName] == e.acc)
    && (e.hash == "" && !e.written ==> e.acc == [])
  }

  predicate ContentAddressed(c: Cache, fs: FS) {
    forall name :: name in fs.files ==> name == Sum(c, fs.files[name])
  }

  predicate RecordsValid(fs: FS) {
    forall fp :: fp in fs.metadata ==> ValidRecord(fs.metadata[fp])
  }

  /** Both kinds of entry GetFile returns satisfy the invariant, and a miss
      starts with nothing written. */
  lemma GetFileEstablishes(c: Cache, fs: FS, key: Key, faults: set<Syscall>)
    requires GetFile(c, fs, key, faults).Ok?
    ensures var e := GetFile(c, fs, key, faults).value;
      EntryInvariant(e) && Coherent(e, fs) && Closed(e) && !e.changed
  {
  }

  /** With every record valid, loading never reaches the failed type
      assertion: GetFile either returns an entry or an ordinary error. */
  lemma GetFileNeverPanicsOnValidRecords(c: Cache, fs: FS, key: Key, faults: set<Syscall>)
    requires RecordsValid(fs)
    ensures !(GetFile(c, fs, key, faults).Err? && GetFile(c, fs, key, faults).error.Panic?)
  {
    var fp := KeyHash(c, key).0;
    if fp in fs.metadata {
      assert ValidRecord(fs.metadata[fp]);
    }
  }

  /** Store cannot reach the reserved name, so it keeps the invariant and
      never touches the content hash or the changed flag. */
  lemma StoreKeepsInvariant(e: Entry, name: string, v: Value)
    requires EntryInvariant(e)
    requires Store(e, name, v).Ok?
    ensures var e' := Store(e, name, v).value;
      && EntryInvariant(e')
      && e'.hash == e.hash && e'.changed == e.changed
      && (CacheData in e.data <==> CacheData in e'.data)
      && (CacheData in e.data ==> e'.data[CacheData] == e.data[CacheData])
  {
    var e' := Store(e, name, v).value;
    assert name != CacheData by {
      assert name[0] != '_' && CacheData[0] == '_';
    }
  }

  /** Storing and then getting a name gives the stored value back. */
  lemma StoreThenGet(e: Entry, name: string, v: Value)
    requires Store(e, name, v).Ok?
    ensures Get(Store(e, name, v).value, name) == v
    ensures Lookup(Store(e, name, v).value, name) == (v, true)
  {
  }

  /** Write and WriteFunc leave the hash, the reserved value and the
      changed flag alone, on every outcome. */
  lemma WritesKeepInvariant(e: Entry, fs: FS, p: seq<byte>, tmp: string, w: Producer, faults: set<Syscall>)
    requires EntryInvariant(e)
    requires tmp !in fs.temps
    ensures EntryInvariant(Write(e, fs, p, tmp, faults).entry)
    ensures EntryInvariant(WriteFunc(e, fs, tmp, w, faults).entry)
  {
  }

  /** A successful Close keeps the invariant. */
  lemma CloseKeepsInvariant(c: Cache, e: Entry, fs: FS, faults: set<Syscall>)
    requires EntryInvariant(e)
    requires Close(c, e, fs, faults).result.Ok?
    ensures EntryInvariant(Close(c, e, fs, faults).entry)
  {
    Hex.EncodeDigestNonEmpty(c.digest(e.acc));
  }

  /** The corrected Close keeps the invariant on every outcome, failures
      included. */
  lemma CorrectedCloseKeepsInvariant(c: Cache, e: Entry, fs: FS, faults: set<Syscall>)
    requires EntryInvariant(e)
    ensures EntryInvariant(CloseCorrected(c, e, fs, faults).entry)
  {
  }

  /** Save keeps the entry's invariant and writes only records that can be
      loaded back. */
  lemma SaveKeepsRecordsValid(c: Cache, e: Entry, fs: FS, faults: set<Syscall>)
    requires EntryInvariant(e) && RecordsValid(fs)
    ensures RecordsValid(Save(c, e, fs, faults).fs)
    ensures EntryInvariant(Save(c, e, fs, faults).entry)
  {
    var o := Save(c, e, fs, faults);
    if o.result.Ok? && e.changed {
      assert ValidRecord(e.data);
    }
  }

  /** Close is idempotent: once it has succeeded, closing again changes
      nothing and succeeds, whatever would fail. */
  lemma CloseIsIdempotent(c: Cache, e: Entry, fs: FS, faults: set<Syscall>, faults2: set<Syscall>)
    requires Close(c, e, fs, faults).result.Ok?
    ensures var o := Close(c, e, fs, faults);
      Close(c, o.entry, o.fs, faults2) == Outcome(o.entry, o.fs, Ok(()))
  {
  }

  /** When Close has nothing to publish, it only discards the held temp
      file: hash, data, blobs, records, links and every other temp file stay
      as they are, and a failure changes no file at all. */
  lemma CloseWithoutContentPublishesNothing(c: Cache, e: Entry, fs: FS, faults: set<Syscall>)
    requires !e.written || e.hash != ""
    ensures var o := Close(c, e, fs, faults);
      && o.entry.hash == e.hash && o.entry.data == e.data && o.entry.changed == e.changed
      && (o.result.Ok? ==> o.fs == fs.(temps := if e.open then fs.temps - {e.tmpName} else fs.temps))
      && (o.result.Err? ==> o.fs == fs)
  {
  }

  /** Write keeps the temp file equal to the accumulated bytes, unless it
      reopens an entry left written but unpublished by a WriteFunc (which
      holds no temp handle). */
  lemma WriteKeepsCoherent(e: Entry, fs: FS, p: seq<byte>, tmp: string, faults: set<Syscall>)
    requires Coherent(e, fs)
    requires !e.open ==> tmp !in fs.temps && (!e.written || e.hash != "")
    requires Write(e, fs, p, tmp, faults).result.Ok?
    ensures var o := Write(e, fs, p, tmp, faults); Coherent(o.entry, o.fs)
  {
  }

  /** A WriteFunc on an entry that has not been written leaves the file the
      producer made equal to the accumulated bytes. */
  lemma WriteFuncKeepsCoherent(e: Entry, fs: FS, tmp: string, w: Producer, faults: set<Syscall>)
    requires Coherent(e, fs) && !e.written
    requires tmp !in fs.temps
    requires WriteFunc(e, fs, tmp, w, faults).result.Ok?
    ensures var o := WriteFunc(e, fs, tmp, w, faults); Coherent(o.entry, o.fs)
  {
  }

  /** Content addressing: a Close from a coherent entry publishes the
      accumulated bytes under their own hash, so every blob stays named by
      the hash of its content. */
  lemma ClosePublishesContentAddressed(c: Cache, e: Entry, fs: FS, faults: set<Syscall>)
    requires Coherent(e, fs) && ContentAddressed(c, fs)
    ensures var o := Close(c, e, fs, faults);
      && ContentAddressed(c, o.fs)
      && (o.result.Ok? && e.written && e.hash == "" ==>
            o.entry.hash in o.fs.files && o.fs.files[o.entry.hash] == e.acc)
  {
    var o := Close(c, e, fs, faults);
    if e.written && e.hash == "" && o.result.Ok? {
      forall name | name in o.fs.files
        ensures name == Sum(c, o.fs.files[name])
      {
        if name != o.entry.hash {
          assert o.fs.files[name] == fs.files[name];
        }
      }
    }
  }

  /** The byte strings of `chunks`, one after another. */
  function Concat(chunks: seq<seq<byte>>): seq<byte>
  {
    if |chunks| == 0 then [] else chunks[0] + Concat(chunks[1..])
  }

  /** A caller writing `chunks` one Write at a time, nothing failing. */
  function WriteAll(e: Entry, fs: FS, chunks: seq<seq<byte>>, tmp: string): (o: Outcome<()>)
    requires !e.open ==> tmp !in fs.temps
    ensures o.fs.files == fs.files && o.fs.metadata == fs.metadata && o.fs.installed == fs.installed
    decreases |chunks|
  {
    if |chunks| == 0 then Outcome(e, fs, Ok(()))
    else
      var o := Write(e, fs, chunks[0], tmp, {});
      WriteAll(o.entry, o.fs, chunks[1..], tmp)
  }

  /** Writes accumulate in call order: the held temp file and the
      accumulator both receive every chunk, one after another. */
  lemma {:induction false} WriteAllAppends(e: Entry, fs: FS, chunks: seq<seq<byte>>, tmp: string)
    requires e.open && e.tmpName in fs.temps
    ensures var o := WriteAll(e, fs, chunks, tmp);
      && o.entry == e.(acc := e.acc + Concat(chunks), written := e.written || |chunks| > 0)
      && o.fs.temps == fs.temps[e.tmpName := fs.temps[e.tmpName] + Concat(chunks)]
    decreases |chunks|
  {
    if |chunks| > 0 {
      var o := Write(e, fs, chunks[0], tmp, {});
      var t := e.tmpName;
      assert o.fs.temps == fs.temps[t := fs.temps[t] + chunks[0]];
      WriteAllAppends(o.entry, o.fs, chunks[1..], tmp);
      assert o.entry.tmpName == t && o.fs.temps[t] == fs.temps[t] + chunks[0];
      assert o.fs.temps[t] + Concat(chunks[1..]) == fs.temps[t] + Concat(chunks);
      assert o.fs.temps[t := o.fs.temps[t] + Concat(chunks[1..])] == fs.temps[t := fs.temps[t] + Concat(chunks)];
      assert e.acc + chunks[0] + Concat(chunks[1..]) == e.acc + Concat(chunks);
    } else {
      assert fs.temps[e.tmpName] + Concat(chunks) == fs.temps[e.tmpName];
      assert fs.temps[e.tmpName := fs.temps[e.tmpName]] == fs.temps;
      assert e.acc + Concat(chunks) == e.acc;
    }
  }

  /** WriteAll followed by a Close that meets no fault. */
  function WriteAllThenClose(c: Cache, e: Entry, fs: FS, chunks: seq<seq<byte>>, tmp: string): (o: Outcome<()>)
    requires !e.open ==> tmp !in fs.temps
  {
    var w := WriteAll(e, fs, chunks, tmp);
    Close(c, w.entry, w.fs, {})
  }

  /** The first Write to a fresh entry opens a new temp file holding just
      those bytes. */
  lemma FirstWriteOpens(e: Entry, fs: FS, p: seq<byte>, tmp: string)
    requires Fresh(e) && tmp !in fs.temps
    ensures var o := Write(e, fs, p, tmp, {});
      && o.entry == e.(open := true, tmpName := tmp, written := true, acc := p)
      && o.fs == fs.(temps := fs.temps[tmp := p])
  {
    var o := Write(e, fs, p, tmp, {});
    assert o.fs.temps == fs.temps[tmp := o.fs.temps[tmp]] && o.fs.temps[tmp] == p;
  }

  /** A fresh entry written in chunks holds one new temp file with their
      concatenation, accumulated the same bytes, and touched nothing else. */
  lemma WriteAllFromFresh(e: Entry, fs: FS, chunks: seq<seq<byte>>, tmp: string)
    requires Fresh(e) && tmp !in fs.temps && |chunks| > 0
    ensures var w := WriteAll(e, fs, chunks, tmp);
      && w.entry == e.(open := true, tmpName := tmp, written := true, acc := Concat(chunks))
      && w.fs == fs.(temps := fs.temps[tmp := Concat(chunks)])
  {
    var w1 := Write(e, fs, chunks[0], tmp, {});
    FirstWriteOpens(e, fs, chunks[0], tmp);
    var e1, fs1 := w1.entry, w1.fs;
    WriteAllAppends(e1, fs1, chunks[1..], tmp);
    assert chunks[0] + Concat(chunks[1..]) == Concat(chunks);
    var w := WriteAll(e1, fs1, chunks[1..], tmp);
    assert w.fs.temps == fs.temps[tmp := Concat(chunks)] by {
      var t0, t1, t := fs.temps, fs1.temps, w.fs.temps;
      assert t1 == t0[tmp := chunks[0]] && t == t1[tmp := Concat(chunks)];
      assert t.Keys == t0[tmp := Concat(chunks)].Keys;
    }
    assert WriteAll(e, fs, chunks, tmp) == w;
  }

  /** Closing a fresh entry that has written `bytes` to a new temp file
      publishes them under their hash and gives back the temp name. */
  lemma CloseOfFirstWrites(c: Cache, e: Entry, fs: FS, bytes: seq<byte>, tmp: string)
    requires Fresh(e) && tmp !in fs.temps
    ensures var o := Close(c, e.(open := true, tmpName := tmp, written := true, acc := bytes),
                           fs.(temps := fs.temps[tmp := bytes]), {});
      && o.result.Ok?
      && o.entry.hash == Sum(c, bytes)
      && o.fs.files == fs.files[o.entry.hash := bytes]
      && o.fs.temps == fs.temps
      && o.entry.data == map[CacheData := Str(o.entry.hash)]
      && o.entry.changed
  {
    var t := fs.temps[tmp := bytes];
    assert t - {tmp} == fs.temps by {
      assert t.Keys - {tmp} == fs.temps.Keys;
    }
  }

  /** A new entry written in chunks and closed publishes the concatenation
      under its own hash and records that hash under the reserved name. */
  lemma WritesThenClosePublish(c: Cache, e: Entry, fs: FS, chunks: seq<seq<byte>>, tmp: string)
    requires Fresh(e) && tmp !in fs.temps && |chunks| > 0
    ensures var o := WriteAllThenClose(c, e, fs, chunks, tmp);
      && o.result.Ok?
      && o.entry.hash == Sum(c, Concat(chunks))
      && o.fs.files == fs.files[o.entry.hash := Concat(chunks)]
      && o.fs.temps == fs.temps
      && o.entry.data == map[CacheData := Str(o.entry.hash)]
      && o.entry.changed
  {
    WriteAllFromFresh(e, fs, chunks, tmp);
    CloseOfFirstWrites(c, e, fs, Concat(chunks), tmp);
  }

  /** Mixing the two writers breaks content addressing: after a Write of
      `p` and a WriteFunc producing `q`, the accumulator holds `p + q` but
      the temp file only `q` (WriteFunc opens a new one), so Close publishes
      `q` under a name that is not its hash. */
  lemma MixedWritersMisnameBlob(c: Cache, e: Entry, fs: FS, p: seq<byte>, q: seq<byte>, tmp1: string, tmp2: string)
    requires DigestInjective(c)
    requires Fresh(e) && tmp1 !in fs.temps && tmp2 !in fs.temps && tmp1 != tmp2 && |p| > 0
    ensures var w := Write(e, fs, p, tmp1, {});
      var wf := WriteFunc(w.entry, w.fs, tmp2, Producer(Some(q), None), {});
      var o := Close(c, wf.entry, wf.fs, {});
      && wf.result.Ok? && o.result.Ok?
      && o.entry.hash in o.fs.files && o.fs.files[o.entry.hash] == q
      && o.entry.hash != Sum(c, q)
      && !ContentAddressed(c, o.fs)
  {
    FirstWriteOpens(e, fs, p, tmp1);
    var w := Write(e, fs, p, tmp1, {});
    var wf := WriteFunc(w.entry, w.fs, tmp2, Producer(Some(q), None), {});
    assert wf.entry.acc == p + q && wf.fs.temps[tmp2] == q;
    assert p + q != q by {
      assert |p + q| != |q|;
    }
    EncodeInjective(c.digest(p + q), c.digest(q));
  }

  /** A failed WriteFunc breaks content addressing too: when the producer
      leaves a file but reports an error, or the file cannot be opened, the
      entry is written, the file stays at the temp path and nothing reached
      the accumulator; the Close a caller runs to clean up then publishes
      that file under the hash of the empty stream. */
  lemma FailedWriteFuncMisnamesBlob(c: Cache, e: Entry, fs: FS, q: seq<byte>, tmp: string, err: Error)
    requires DigestInjective(c)
    requires Fresh(e) && tmp !in fs.temps && |q| > 0
    ensures var wf := WriteFunc(e, fs, tmp, Producer(Some(q), Some(err)), {});
      var o := Close(c, wf.entry, wf.fs, {});
      && wf.result.Err? && o.result.Ok?
      && o.entry.hash in o.fs.files && o.fs.files[o.entry.hash] == q
      && o.entry.hash != Sum(c, q)
      && !ContentAddressed(c, o.fs)
    ensures var wf := WriteFunc(e, fs, tmp, Producer(Some(q), None), {Open});
      var o := Close(c, wf.entry, wf.fs, {});
      && wf.result.Err? && o.result.Ok?
      && o.entry.hash in o.fs.files && o.fs.files[o.entry.hash] == q
      && o.entry.hash != Sum(c, q)
      && !ContentAddressed(c, o.fs)
  {
    var empty: seq<byte> := [];
    assert empty != q;
    EncodeInjective(c.digest(empty), c.digest(q));
    assert e.acc == empty;
  }

  /** A producer that makes no file leaves the entry unwritten and the
      filesystem as it was, and the following Close publishes nothing. */
  lemma WriteFuncWithoutOutputPublishesNothing(c: Cache, e: Entry, fs: FS, tmp: string, faults: set<Syscall>, closeFaults: set<Syscall>)
    requires tmp !in fs.temps
    requires {MkdirAll, TempFile, FileClose, Remove} !! faults
    ensures var o := WriteFunc(e, fs, tmp, Producer(None, None), faults);
      && o.result.Ok? && !o.entry.written && o.fs == fs
      && Close(c, o.entry, o.fs, closeFaults) == Outcome(o.entry, fs, Ok(()))
  {
  }

  /** The "Failed to get hash" branch of Install cannot be reached from an
      entry that keeps the invariant: once Close succeeds, an entry that was
      written or carries data has its hash under the reserved name. */
  lemma InstallFindsHash(c: Cache, e: Entry, fs: FS, path: string, faults: InstallFaults)
    requires EntryInvariant(e)
    ensures Install(c, e, fs, path, faults).result != Err(Message("Failed to get hash"))
  {
    var cl := Close(c, e, fs, faults.close);
    if cl.result.Ok? {
      CloseKeepsInvariant(c, e, fs, faults.close);
    }
  }

  /** Install links the published blob: after a successful Install of an
      entry with content, `path` refers to the blob named by the entry's
      hash, and that blob holds content whose hash is its name. */
  lemma InstallLinksPublishedBlob(c: Cache, e: Entry, fs: FS, path: string, faults: InstallFaults)
    requires EntryInvariant(e) && Coherent(e, fs) && ContentAddressed(c, fs)
    requires e.written || CacheData in e.data
    requires Install(c, e, fs, path, faults).result.Ok?
    ensures var o := Install(c, e, fs, path, faults);
      && path in o.fs.installed
      && o.fs.installed[path] == o.entry.hash
      && ContentAddressed(c, o.fs)
      && (e.written && e.hash == "" ==> o.fs.files[o.entry.hash] == e.acc)
  {
    var cl := Close(c, e, fs, faults.close);
    CloseKeepsInvariant(c, e, fs, faults.close);
    ClosePublishesContentAddressed(c, e, fs, faults.close);
  }

  /** No spurious writes: an entry that is not changed (every loaded hit,
      whatever is stored into it) installs without touching metadata. */
  lemma UnchangedInstallKeepsMetadata(c: Cache, e: Entry, fs: FS, path: string, faults: InstallFaults)
    requires !e.changed && Closed(e)
    ensures Install(c, e, fs, path, faults).fs.metadata == fs.metadata
    ensures !Install(c, e, fs, path, faults).entry.changed
  {
  }

  /** A loaded hit, given new named values and installed, does not rewrite
      the metadata record (nor any other). */
  lemma HitStoreInstallKeepsMetadata(c: Cache, fs: FS, key: Key, loadFaults: set<Syscall>, name: string, v: Value, path: string, faults: InstallFaults)
    requires GetFile(c, fs, key, loadFaults).Ok?
    requires Store(GetFile(c, fs, key, loadFaults).value, name, v).Ok?
    ensures var e := Store(GetFile(c, fs, key, loadFaults).value, name, v).value;
      Install(c, e, fs, path, faults).fs.metadata == fs.metadata
  {
    var e := Store(GetFile(c, fs, key, loadFaults).value, name, v).value;
    UnchangedInstallKeepsMetadata(c, e, fs, path, faults);
  }

  /** Values stored into an entry that has not published anything are not
      persisted: Save does nothing until Close has published. */
  lemma StoreAloneIsNotSaved(c: Cache, e: Entry, fs: FS, name: string, v: Value, faults: set<Syscall>)
    requires !e.changed && Store(e, name, v).Ok?
    ensures Save(c, Store(e, name, v).value, fs, faults).fs == fs
  {
  }

  /** Round trip through the metadata area: a value stored into a published
      entry that is then saved is found again by any key with the same
      operation and details. */
  lemma StoreSaveReload(c: Cache, e: Entry, fs: FS, name: string, v: Value, key: Key)
    requires EntryInvariant(e) && e.changed
    requires ValidMemo(c, e.key) && ValidMemo(c, key)
    requires key.op == e.key.op && key.files == e.key.files
    requires Store(e, name, v).Ok?
    ensures var s := Save(c, Store(e, name, v).value, fs, {});
      && s.result.Ok?
      && GetFile(c, s.fs, key, {}).Ok?
      && Get(GetFile(c, s.fs, key, {}).value, name) == v
      && GetFile(c, s.fs, key, {}).value.hash == e.hash
  {
    var e' := Store(e, name, v).value;
    StoreKeepsInvariant(e, name, v);
    FingerprintDeterministic(c, e'.key, key);
  }

  /** Deduplication: two entries that wrote the same bytes publish them
      under one name, so both records point at a single blob. */
  lemma IdenticalContentSharesBlob(c: Cache, e1: Entry, e2: Entry, fs: FS, faults1: set<Syscall>, faults2: set<Syscall>)
    requires e1.written && e1.hash == "" && e2.written && e2.hash == ""
    requires Coherent(e1, fs) && e1.acc == e2.acc
    requires Close(c, e1, fs, faults1).result.Ok?
    requires var o1 := Close(c, e1, fs, faults1); Coherent(e2, o1.fs) && Close(c, e2, o1.fs, faults2).result.Ok?
    ensures var o1 := Close(c, e1, fs, faults1);
      var o2 := Close(c, e2, o1.fs, faults2);
      && o1.entry.hash == o2.entry.hash
      && o2.entry.data[CacheData] == o1.entry.data[CacheData]
      && o2.fs.files == o1.fs.files
  {
  }

  /** Installing twice to the same path fails the second time: the link
      already exists, and neither a hard nor a symbolic link replaces it. */
  lemma SecondInstallToSamePathFails(c: Cache, e: Entry, fs: FS, path: string, faults: InstallFaults, faults2: InstallFaults)
    requires EntryInvariant(e)
    requires e.written || CacheData in e.data
    requires Install(c, e, fs, path, faults).result.Ok?
    requires MkdirAll !in faults2.link
    ensures var o := Install(c, e, fs, path, faults);
      Install(c, o.entry, o.fs, path, faults2).result == Err(Cerr("os.Symlink", Exist))
  {
    CloseKeepsInvariant(c, e, fs, faults.close);
  }

  /** The two runs of a build: the first misses, writes its output, and
      installs it; the second, with untouched sources, hits the record the
      first saved and links the same blob without writing anything, leaving
      the metadata as the first run left it. */
  lemma SecondRunReusesBlob(c: Cache, fs: FS, key: Key, out: seq<byte>, tmp: string, dst1: string, dst2: string)
    requires key.memo == ""
    requires KeyHash(c, key).0 !in fs.metadata
    requires tmp !in fs.temps && dst1 !in fs.installed && dst2 !in fs.installed && dst1 != dst2
    ensures var noFaults := InstallFaults({}, {}, {});
      var e := GetFile(c, fs, key, {}).value;
      var w := Write(e, fs, out, tmp, {});
      var run1 := Install(c, w.entry, w.fs, dst1, noFaults);
      && run1.result.Ok?
      && var hit := GetFile(c, run1.fs, key, {});
      && hit.Ok? && hit.value.hash == Sum(c, out)
      && var run2 := Install(c, hit.value, run1.fs, dst2, noFaults);
      && run2.result.Ok?
      && run2.fs.installed[dst2] == run1.fs.installed[dst1] == Sum(c, out)
      && run2.fs.files[Sum(c, out)] == out
      && run2.fs.metadata == run1.fs.metadata
  {
    var noFaults := InstallFaults({}, {}, {});
    var e := GetFile(c, fs, key, {}).value;
    FirstWriteOpens(e, fs, out, tmp);
    CloseOfFirstWrites(c, e, fs, out, tmp);
    var w := Write(e, fs, out, tmp, {});
    var run1 := Install(c, w.entry, w.fs, dst1, noFaults);
    var hit := GetFile(c, run1.fs, key, {});
    UnchangedInstallKeepsMetadata(c, hit.value, run1.fs, dst2, noFaults);
  }

  /** Close as written: when the rename fails, the entry keeps the hash it
      set beforehand without the reserved value. Closing again then
      "succeeds" without publishing, and Install reports "Failed to get
      hash" although Close succeeded. */
  lemma RetriedCloseAfterFailedRenameLosesHash(c: Cache, e: Entry, fs: FS, path: string)
    requires Fresh(e.(written := false, acc := [], open := false)) && e.written
    requires e.tmpName in fs.temps
    ensures var failed := Close(c, e, fs, {Rename});
      && failed.result.Err?
      && failed.entry.hash != "" && CacheData !in failed.entry.data
      && !EntryInvariant(failed.entry)
      && Close(c, failed.entry, failed.fs, {}).result.Ok?
      && Install(c, failed.entry, failed.fs, path, InstallFaults({}, {}, {})).result == Err(Message("Failed to get hash"))
  {
    Hex.EncodeDigestNonEmpty(c.digest(e.acc));
  }

  /** Close as written: when closing the temp file fails, the entry is left
      marked changed with no hash, and a Save then persists a record without
      the reserved value, which the next GetFile for that key cannot load. */
  lemma SaveAfterFailedCloseStoresUnloadableRecord(c: Cache, e: Entry, fs: FS)
    requires Fresh(e.(written := false, open := false)) && e.written && e.open
    ensures var failed := Close(c, e, fs, {FileClose});
      var saved := Save(c, failed.entry, failed.fs, {});
      && failed.result.Err?
      && failed.entry.changed && failed.entry.hash == ""
      && saved.result.Ok?
      && GetFile(c, saved.fs, e.key, {}) == Err(Panic("interface conversion: interface {} is not string"))
  {
  }

  /** The corrected Close gets the same failures right: after a failed
      rename nothing is marked, a retried Close tries to publish again, and
      Install never reports "Failed to get hash". */
  lemma CorrectedInstallFindsHash(c: Cache, e: Entry, fs: FS, path: string, faults: InstallFaults)
    requires EntryInvariant(e)
    ensures InstallCorrected(c, e, fs, path, faults).result != Err(Message("Failed to get hash"))
    ensures EntryInvariant(InstallCorrected(c, e, fs, path, faults).entry)
  {
    var cl := CloseCorrected(c, e, fs, faults.close);
    CorrectedCloseKeepsInvariant(c, e, fs, faults.close);
    Hex.EncodeDigestNonEmpty(c.digest(e.acc));
    if cl.result.Ok? {
      LinkAndSaveKeepsInvariant(c, cl.entry, cl.fs, path, faults);
    }
  }

  /** The corrected Close, failing, never leaves Save an unloadable
      record: a failure before the rename leaves the entry unchanged, so
      Save does nothing, and one after it (chmod) has recorded the hash, so
      whatever Save writes can be loaded. */
  lemma CorrectedFailedCloseLeavesNothingToSave(c: Cache, e: Entry, fs: FS, faults: set<Syscall>, saveFaults: set<Syscall>)
    requires EntryInvariant(e) && e.written && e.hash == ""
    requires CloseCorrected(c, e, fs, faults).result.Err?
    ensures var o := CloseCorrected(c, e, fs, faults);
      && (o.entry.hash == "" ==> Save(c, o.entry, o.fs, saveFaults) == Outcome(o.entry, o.fs, Ok(())))
      && (RecordsValid(fs) ==> RecordsValid(Save(c, o.entry, o.fs, saveFaults).fs))
  {
    CorrectedCloseKeepsInvariant(c, e, fs, faults);
    var o := CloseCorrected(c, e, fs, faults);
    if RecordsValid(fs) {
      SaveKeepsRecordsValid(c, o.entry, o.fs, saveFaults);
    }
  }

  /** A retried corrected Close always gets there: after any failure of a
      Close with content to publish (its temp file still in place), a Close
      that meets no fault succeeds with the blob published and its hash
      under the reserved name. After a failed file close the handle is
      already released, so the retry goes straight to the rename. */
  lemma CorrectedCloseRetrySucceeds(c: Cache, e: Entry, fs: FS, faults: set<Syscall>)
    requires e.written && e.hash == "" && e.tmpName in fs.temps
    requires CloseCorrected(c, e, fs, faults).result.Err?
    ensures var f := CloseCorrected(c, e, fs, faults);
      var r := CloseCorrected(c, f.entry, f.fs, {});
      && r.result.Ok?
      && r.entry.hash == Sum(c, e.acc)
      && CacheData in r.entry.data && r.entry.data[CacheData] == Str(Sum(c, e.acc))
      && r.fs.files[Sum(c, e.acc)] == fs.temps[e.tmpName]
  {
  }

  /** The part of Install after Close keeps the invariant: linking changes
      no entry field, and Save only fills in the key's fingerprint. */
  lemma LinkAndSaveKeepsInvariant(c: Cache, e: Entry, fs: FS, path: string, faults: InstallFaults)
    requires EntryInvariant(e)
    ensures EntryInvariant(LinkAndSave(c, e, fs, path, faults).entry)
  {
  }
}

=== FILE: errors.dfy ===
/** Failure-carrying values shared by the cache model: optional values,
    results, the system calls an operation can fail at, and the error values
    the cache returns (with the context each layer adds on the way up). */
module Errors {

  datatype Option<+T> = None | Some(value: T)

  /** The system calls and library steps a cache operation performs. Each
      operation takes the set of those that fail during that call; which
      ones fail is the environment's choice, not the cache's. */
  datatype Syscall =
    | MkdirAll
    | TempFile
    | FileClose
    | FileWrite
    | Remove
    | Rename
    | Chmod
    | Open
    | Copy
    | Link
    | Symlink
    | GobEncode
    | GobDecode

  /** Errors as the cache reports them. `Cerr` is the wrapper that records
      what was being attempted; `Panic` stands for a run-time panic, which
      unwinds instead of being returned. */
  datatype Error =
    | NotExist
    | Exist
    | Failed(call: Syscall)
    | Cerr(op: string, cause: Error)
    | Message(text: string)
    | Panic(text: string)

  /** os.IsNotExist: it recognises the bare not-exist error only, not one
      that has been wrapped in a Cerr. */
  predicate IsNotExist(e: Error) {
    e.NotExist?
  }

  datatype Result<+T> = Ok(value: T) | Err(error: Error)
}

=== FILE: hex.dfy ===
/** Bytes, digests and their lower-case hexadecimal spelling
    (encoding/hex.EncodeToString), with the decoder that inverts it. */
module Hex {
  import opened Errors

  newtype byte = x: int | 0 <= x < 256

  /** The output of the cache's hash algorithm. The algorithm itself is not
      modelled; the one thing the cache relies on is that a sum is never
      empty, so that its hex spelling is never the empty string. */
  type Digest = d: seq<byte> | |d| > 0 witness [0]

  /** A hash algorithm, fed the whole stream and asked for its sum. */
  type Hasher = seq<byte> -> Digest

  predicate IsLowerHexDigit(ch: char) {
    '0' <= ch <= '9' || 'a' <= ch <= 'f'
  }

  function Digit(n: int): (ch: char)
    requires 0 <= n < 16
    ensures IsLowerHexDigit(ch)
  {
    if n < 10 then ('0' as int + n) as char else ('a' as int + n - 10) as char
  }

  /** The value of one hex digit; upper case is accepted as well, as
      encoding/hex.DecodeString does. */
  function DigitValue(ch: char): (r: Option<int>)
    ensures r.Some? ==> 0 <= r.value < 16
    ensures IsLowerHexDigit(ch) ==> r.Some?
  {
    if '0' <= ch <= '9' then Some(ch as int - '0' as int)
    else if 'a' <= ch <= 'f' then Some(ch as int - 'a' as int + 10)
    else if 'A' <= ch <= 'F' then Some(ch as int - 'A' as int + 10)
    else None
  }

  /** hex.EncodeToString: two lower-case digits per byte, high nibble first. */
  function Encode(b: seq<byte>): (s: string)
    ensures |s| == 2 * |b|
    ensures forall i :: 0 <= i < |s| ==> IsLowerHexDigit(s[i])
  {
    if |b| == 0 then ""
    else [Digit(b[0] as int / 16), Digit(b[0] as int % 16)] + Encode(b[1..])
  }

  /** hex.DecodeString: fails on an odd length or a non-digit. */
  function Decode(s: string): (r: Option<seq<byte>>)
    ensures r.Some? ==> |s| == 2 * |r.value|
    decreases |s|
  {
    if |s| == 0 then Some([])
    else if |s| == 1 then None
    else
      match (DigitValue(s[0]), DigitValue(s[1]), Decode(s[2..]))
      case (Some(hi), Some(lo), Some(rest)) => Some([(hi * 16 + lo) as byte] + rest)
      case _ => None
  }

  lemma DigitRoundTrip(n: int)
    requires 0 <= n < 16
    ensures DigitValue(Digit(n)) == Some(n)
  {
  }

  /** Decoding the spelling of a byte string gives the bytes back. */
  lemma {:induction false} DecodeEncode(b: seq<byte>)
    ensures Decode(Encode(b)) == Some(b)
  {
    if |b| > 0 {
      var hi, lo := b[0] as int / 16, b[0] as int % 16;
      DigitRoundTrip(hi);
      DigitRoundTrip(lo);
      var s := Encode(b);
      assert s[0] == Digit(hi) && s[1] == Digit(lo);
      assert s[2..] == Encode(b[1..]);
      DecodeEncode(b[1..]);
      assert [(hi * 16 + lo) as byte] + b[1..] == b;
    }
  }

  /** Distinct byte strings have distinct spellings. */
  lemma EncodeInjective(a: seq<byte>, b: seq<byte>)
    ensures Encode(a) == Encode(b) <==> a == b
  {
    if Encode(a) == Encode(b) {
      DecodeEncode(a);
      DecodeEncode(b);
    }
  }

  /** The spelling of a digest is never the empty string: the cache uses ""
      to mean "no hash yet". */
  lemma EncodeDigestNonEmpty(d: Digest)
    ensures Encode(d) != ""
  {
    assert |Encode(d)| == 2 * |d|;
  }
}
